=== FILE: README.md ===
# Pico Game Controller — a Dafny model of the firmware core

This project models the control logic of two Raspberry Pi Pico firmwares for
rhythm-game controllers.

`src/pico_game_controller.c` is the newer firmware: 11 switches, 11 LEDs and
two quadrature encoders, whose counters a PIO state machine keeps. Each pass
of its main loop does four things:
- takes a lighting command from the host, if one arrived;
- polls the switches and samples the encoder counters into a debounce window (`update_inputs`);
- runs the report function chosen at start-up: a joystick report (`joy_mode`) or an NKRO keyboard plus relative mouse (`key_mode`);
- redraws the LEDs when asked to (`update_lights`).

`src/pico_sdvx.c` is the older firmware with 7 switches:
- it decodes its two encoders in software, in a pin-change interrupt, through a 16-entry transition table;
- it keeps a 10-slot smoothing buffer per encoder;
- its loop mirrors the switches onto the LEDs and one-key keyboard reports, and sends the accumulated motion as a mouse report.

Everything is pure functions over immutable datatypes, one module per part of
the firmware:

| module | file | models |
|---|---|---|
| `Words` | words.dfy | C integer behaviour: 32-bit wrap-around, `uint32` to `int` conversion, `int8` truncation, bits of a natural |
| `Board` | board.dfy | switch and encoder counts, encoder polarity, keybinds |
| `Switches` | switches.dfy | switch polling and the two ways the modes commit the switch snapshot |
| `Debounce` | debounce.dfy | the per-encoder sample window and the acceptance scan |
| `EncoderDelta` | delta.dfy | the counter delta with rollover detection, the signed step and the position fold |
| `Reports` | reports.dfy | the joystick button field, the NKRO bitmap and the mouse report |
| `Lighting` | lighting.dfy | `update_lights` and the host's lighting command |
| `Controller` | controller.dfy | `update_inputs`, `joy_mode`, `key_mode` and the main loop of the newer firmware |
| `Sdvx` | sdvx.dfy | the older firmware: encoder interrupt, smoothing, keyboard loop |

C's fixed-width integers are written out explicitly, since Dafny's integers
are unbounded:
- the encoder counters are `uint32`;
- their difference is stored in an `int`;
- the debounce cursor is a `uint8_t`;
- the mouse report takes `int8` motions.

The model follows the code as written, including where it behaves
differently from what its comments suggest. Lemmas show each of these places:

- **The `int` delta.** The unsigned difference of two counter readings is
  stored in an `int`. A distance of 2^31 or more therefore reads as negative
  before the rollover test. `EncoderDelta.ReadingsAgree` shows that the
  resulting motion still agrees with the intended natural-number reading
  exactly when the distance is within the threshold (192) or at least 2^31.
  `EncoderDelta.RawDeltaMotion` gives the motion in closed form.
- **The debounce scan.** Its comparisons subtract `uint32` values, so `< 0`
  never holds and `> 0` only means "differ". A change is therefore cancelled
  only when `dir` is negative and some adjacent pair from slot 1 on differs.
  `dir` is negative when slot 1 exceeds slot 0, modulo 2^32, by at least 1
  and at most 2^31 (`Debounce.DirectionBySlots`, `Debounce.ScanCancelsIff`,
  `Debounce.SampleAccepts`).
- **The debounce cursor.** It is a `uint8_t`, so it cycles through slots 0 to
  255 of the 10000-slot window. The other slots stay zero forever, and at
  cursor 255 the new sample is compared with slot 256, which is always zero
  (`Debounce.Advance`, `Debounce.ComparedWithZeroAtWrap`).
- **The position fold.** `while (cur < 0) cur = ENC_PULSE - cur` runs at most
  once. It sends position −1 to 97 rather than 95 (`EncoderDelta.FoldOneBack`).
- **The keyboard snapshot.** In keyboard mode the switch snapshot moves forward
  only for pressed switches. A released switch therefore keeps the change
  flag up, and a keyboard report goes out on every ready cycle
  (`Controller.KeyModeReleaseRepeats`).
- **The encoder flags in keyboard mode.** Only encoder 0's flag is cleared.
  When both flags are set, the second pass finds the snapshots already
  committed and sends zero motion (`Controller.KeyModeBothChangedLosesMotion`,
  `Controller.KeyModeKeepsSecondFlag`).
- **The host's lighting command.** It is accepted at 11 bytes but 12 are read,
  so the last LED byte comes from past the buffer
  (`Lighting.ElevenByteCommandOverreads`).
- **The timeout and the host pattern.** Reaching the timeout does not request
  a redraw. A host pattern therefore stays on the LEDs after the timeout
  until some switch changes (`Controller.HostPatternPersists`).
- **The older firmware's mouse request.** The request flag is never cleared,
  so every later loop sends a mouse report, with zero motion when nothing
  moved (`Sdvx.MouseReportRepeats`).

## Model

| member | source | states |
|---|---|---|
| Words.Wrap32 | src/pico_game_controller.c:136 | the `uint32` result of an expression is the value reduced modulo 2^32, unchanged when already in range |
| Words.ToInt32 | src/pico_game_controller.c:122-130 | storing a `uint32` in an `int` gives the two's-complement value in [−2^31, 2^31), which wraps back to the same word and is negative exactly when the word is at least 2^31 |
| Words.Sub32 | src/pico_game_controller.c:126-129 | unsigned subtraction is the plain difference when it does not underflow, 2^32 minus the shortfall when it does, and zero exactly for equal operands |
| Words.ToInt8 | src/pico_game_controller.c:223 | a mouse motion is truncated to the signed byte in [−128, 128) congruent to it, and kept when it already fits |
| Words.BitsAboveWidth | src/pico_game_controller.c:109-111 | a value below 2^n has no bit at position n or above |
| Reports.PackFrom | src/pico_game_controller.c:110-111 | the shift-and-or loop from switch `i` on gives a value below 2^(count−i) whose bit k is set exactly when switch i+k is pressed |
| Reports.PackButtons | src/pico_game_controller.c:109-114 | bit k of the joystick button field is set exactly when switch k is pressed, and bits 11 to 15 are clear |
| Reports.KeySlot | src/pico_game_controller.c:170-176 | keys 240 to 247 go to byte 0, any other key k to byte k/8+1 bit k%8 when that byte is at most 31, and a key with no byte sets nothing |
| Reports.KeySlotRoundTrip | src/pico_game_controller.c:170-176 | no two keys share a bitmap bit: the key is recovered from its bit |
| Reports.SlotKeyRoundTrip | src/pico_game_controller.c:170-176 | every bit of bytes 0 to 30 belongs to exactly one key, and no key reaches byte 31 |
| Reports.SetBit | src/pico_game_controller.c:173-175 | `|= 1 << bit` sets that bit and keeps every other |
| Reports.NkroFrom | src/pico_game_controller.c:167-180 | after the first n switches, a bitmap bit is set exactly when one of them is pressed and its key owns the bit |
| Reports.Nkro | src/pico_game_controller.c:166-183 | the NKRO report has 32 bytes, and a bit is set exactly when some pressed switch's key owns it |
| Reports.NkroSingleKey | src/pico_game_controller.c:167-180 | with one switch pressed whose key is below 240, exactly the bit of its key is set |
| Reports.NkroReleasedEmpty | src/pico_game_controller.c:167-180 | with every switch released the keyboard report is all zero |
| Reports.Mouse | src/pico_game_controller.c:223 | the mouse report has no buttons, wheel or pan, and carries both motions truncated to signed bytes |
| Switches.Released | src/pico_game_controller.c:329-337 | start-up: nothing pressed, nothing in the snapshot, no change pending |
| Switches.PollFrom | src/pico_game_controller.c:233-242 | from switch i on, a switch is pressed exactly when its line is low, and the flag rises exactly when it was up or some later switch differs from its snapshot |
| Switches.Poll | src/pico_game_controller.c:233-242 | a poll leaves each switch pressed exactly when its line is low, and raises the flag when any switch differs from its snapshot; it never lowers the flag or touches the snapshot |
| Switches.JoyCommit | src/pico_game_controller.c:110-115 | joystick mode clears the flag and copies every switch into the snapshot |
| Switches.KeyCommit | src/pico_game_controller.c:168-184 | keyboard mode clears the flag and sets the snapshot only for pressed switches |
| Switches.JoyCommitSettles | src/pico_game_controller.c:110-115 | after the joystick commit, a poll of unchanged lines reports no change |
| Switches.KeyCommitKeepsReleaseChanging | src/pico_game_controller.c:178 | after the keyboard commit, a released switch whose snapshot says pressed raises the flag on every poll and keeps that snapshot |
| Debounce.Zeroed | src/pico_game_controller.c:321-324 | start-up: cursor 0, every sample slot zero |
| Debounce.Advance | src/pico_game_controller.c:251 | the `uint8_t` cursor goes to cursor+1 below 255 and back to 0 after 255 |
| Debounce.ComparedSlot | src/pico_game_controller.c:252-254 | the new sample is compared with the slot one past the advanced cursor |
| Debounce.Direction | src/pico_game_controller.c:256 | `dir` is the signed reading of the unsigned difference of slots 0 and 1: zero exactly when they are equal, negative exactly when that difference is at least 2^31 |
| Debounce.DirectionBySlots | src/pico_game_controller.c:256 | `dir` is negative when slot 1 exceeds slot 0 by at most 2^31, and positive when slot 0 exceeds slot 1 by less than 2^31 |
| Debounce.GrowingCounterAcceptedAfterSlot0Rewrite | src/pico_game_controller.c:250-266 | a counter growing from start-up is accepted on the first sample, which rewrites slot 0, and cancelled on the second and third, when the newer samples lie after slot 0 |
| Debounce.Reverses | src/pico_game_controller.c:258-261 | the scan's test holds exactly when `dir` is negative and the pair differs, since an unsigned difference is never below zero |
| Debounce.ScanFrom | src/pico_game_controller.c:257-265 | the scan from slot j cancels exactly when some adjacent pair from j on trips the test |
| Debounce.ScanCancelsIff | src/pico_game_controller.c:256-265 | the full scan cancels exactly when `dir` is negative and some adjacent pair from slot 1 on differs |
| Debounce.FirstDifference | src/pico_game_controller.c:257-265 | when slot m differs from slot 1, some adjacent pair between them differs |
| Debounce.Sample | src/pico_game_controller.c:250-266 | the counter is written at the cursor, the cursor advances, and the flag is set exactly when the sample differs from the compared slot and the scan does not cancel; slots from 256 on stay zero |
| Debounce.SampleAccepts | src/pico_game_controller.c:250-266 | a differing sample is accepted exactly when `dir` is not negative or the window is steady from slot 1 |
| Debounce.ComparedWithZeroAtWrap | src/pico_game_controller.c:251-254 | at cursor 254 any non-zero counter differs from the always-zero slot 256 |
| EncoderDelta.RawDelta | src/pico_game_controller.c:122-138 | the computed motion is congruent to the counter difference modulo 2^32 and at most 2^31 in size, and the direction flips exactly when the distance is above 192 but below 2^31 |
| EncoderDelta.RawDeltaMotion | src/pico_game_controller.c:122-138 | the motion is the distance in the counter's direction below 2^31, and the wrapped distance against it from 2^31 on |
| EncoderDelta.NaturalDelta | src/pico_game_controller.c:122-138 | read with natural numbers, a distance above 192 is a wrapped counter: the direction flips and the magnitude is 2^32 minus the distance |
| EncoderDelta.ReadingsAgree | src/pico_game_controller.c:122-138 | the code's motion equals the natural reading exactly when the distance is at most 192 or at least 2^31 |
| EncoderDelta.WrapExample | src/pico_game_controller.c:122-138 | from UINT32_MAX−2 to 1 the code gives delta −4 with direction −1, which is still +4 of motion |
| EncoderDelta.Step | src/pico_game_controller.c:140-141 | the signed step is congruent to polarity times the counter difference, and zero when the counter did not move |
| EncoderDelta.MouseStep | src/pico_game_controller.c:212 | the keyboard mode's `delta *= changeType * polarity` is the same step |
| EncoderDelta.Fold | src/pico_game_controller.c:142-144 | the fold leaves a non-negative position; a negative one becomes ENC_PULSE minus it, above one revolution |
| EncoderDelta.FoldOneBack | src/pico_game_controller.c:142-144 | position −1 folds to 97, where reduction modulo 96 gives 95 |
| EncoderDelta.Track | src/pico_game_controller.c:140-144 | the new position is never negative: it is the old one plus the step when that sum is not negative, and ENC_PULSE minus the sum when it is |
| EncoderDelta.AxisApprox | src/pico_game_controller.c:149-150 | the integer axis value is the floor of position×256/96, a byte within one revolution |
| EncoderDelta.AxisHalfTurn | src/pico_game_controller.c:149-150 | half a revolution, position 48, gives axis value 128 |
| Lighting.Initial | src/pico_game_controller.c:59-60 | start-up: reactive, nothing to redraw |
| Lighting.LedLevels | src/pico_game_controller.c:76-90 | reactive LEDs show the switches; otherwise an LED is lit exactly when its pattern byte is non-zero |
| Lighting.UpdateLights | src/pico_game_controller.c:71-93 | the counter climbs by one up to its cap; LEDs are written exactly when a redraw was requested, for the regime after the climb; the request is then cleared |
| Lighting.SetReport | src/pico_game_controller.c:390-404 | an output report with id 2, first byte 2 and at least 11 bytes restarts the timeout, requests a redraw and takes pattern byte i from buffer byte i+1; any other report changes nothing |
| Lighting.ElevenByteCommandOverreads | src/pico_game_controller.c:394-400 | an 11-byte command passes the size check, and its last pattern byte comes from past the buffer |
| Lighting.ShortCommandIgnored | src/pico_game_controller.c:394-395 | a command shorter than 11 bytes is ignored |
| Lighting.HostWriteShowsNextCycle | src/pico_game_controller.c:390-404 | after an accepted command the next cycle lights exactly the LEDs whose pattern byte is non-zero |
| Lighting.Cycles | src/pico_game_controller.c:71-93 | repeated cycles keep the counter within its cap |
| Lighting.CyclesCount | src/pico_game_controller.c:72-74 | after n cycles the counter is its old value plus n, capped at 100000, with no redraw pending |
| Lighting.TimeoutReturnsToReactive | src/pico_game_controller.c:72-77 | after a host write the counter reaches the reactive regime after exactly 100000 cycles and not before |
| Controller.Init | src/pico_game_controller.c:290-344 | start-up state: valid, no change pending, reactive lights, counters and positions zero |
| Controller.SelectMode | src/pico_game_controller.c:347-351 | a released switch 0 at start-up selects the joystick, a pressed one keyboard and mouse |
| Controller.SampleEncoder | src/pico_game_controller.c:249-267 | an encoder's window and flag take the sample, and position and snapshot are kept |
| Controller.SampleAll | src/pico_game_controller.c:249-267 | every encoder takes its own counter's sample |
| Controller.UpdateInputs | src/pico_game_controller.c:231-268 | the switches are polled; a redraw is requested when the switches changed while reactive, and an earlier request stays; every encoder is sampled; validity is kept |
| Controller.JoyEncoder | src/pico_game_controller.c:119-151 | a pending change moves the position by the step and commits the counter; the flag is cleared either way |
| Controller.JoyMode | src/pico_game_controller.c:104-158 | with the transport ready, a report goes out exactly when the switches or an encoder changed; a switch change packs the buttons and leaves the switches exactly as the joystick commit does; busy, nothing happens |
| Controller.Recompute | src/pico_game_controller.c:194-214 | the inner loop recomputes every encoder's step against its snapshot and commits every snapshot |
| Controller.MouseIteration | src/pico_game_controller.c:191-216 | one pass of the outer loop: an encoder whose flag is down changes nothing; one whose flag is up marks a report due, recomputes both steps against the snapshots, commits both snapshots and clears encoder 0's flag only |
| Controller.MouseLoop | src/pico_game_controller.c:188-217 | a mouse report is due exactly when some flag is set; one flag gives both steps, two flags give zero motion; only encoder 0's flag is cleared |
| Controller.KeyMode | src/pico_game_controller.c:163-226 | with the transport ready, a switch change sends the NKRO bitmap of the pressed switches and commits pressed switches only; the mouse half is `MouseLoop`; busy, nothing happens |
| Controller.ModeStep | src/pico_game_controller.c:365 | the mode function sends only its own kind of report: at most one in joystick mode and at most two in keyboard mode, and none when the transport is busy; it leaves the lighting state and the pressed switches alone; in joystick mode the state and the report are `joy_mode`'s, in keyboard mode the state is `key_mode`'s and its keyboard report goes out before its mouse report |
| Controller.HostLights | src/pico_game_controller.c:390-404 | a host command delivered by the transport task is applied exactly as `tud_hid_set_report_cb` applies it; with no command the lighting state is unchanged |
| Controller.Polled | src/pico_game_controller.c:363-364 | the mode function sees the switches as `update_inputs` polled them, and the lights as the host command left them, with a redraw requested exactly when one was pending or the switches changed while reactive; every encoder has taken its own counter's sample, and the button field is unchanged |
| Controller.Cycle | src/pico_game_controller.c:362-367 | one loop pass keeps validity, sends exactly the mode function's reports, and writes the LEDs and lighting state exactly as `update_lights` does on the polled state; switches, encoders and button field are those the mode function left, so the whole next state is fixed |
| Controller.Run | src/pico_game_controller.c:362-367 | over any run of cycles the state stays valid and every report is of the start-up mode's kind |
| Controller.ConcatOfMode | src/pico_game_controller.c:362-367 | reports of one mode stay of that mode when runs are joined |
| Controller.KeyModeReleaseRepeats | src/pico_game_controller.c:166-185 | in keyboard mode a switch released after being pressed makes every ready cycle send a keyboard report again |
| Controller.ChangedKeyModeSendsKeyboard | src/pico_game_controller.c:166-185 | a pending switch change in keyboard mode sends the keyboard report first and commits the snapshot |
| Controller.KeyModeBothChangedLosesMotion | src/pico_game_controller.c:191-223 | with both encoder flags set, the mouse report carries no motion, yet both snapshots are committed |
| Controller.KeyModeKeepsSecondFlag | src/pico_game_controller.c:215 | keyboard mode never clears encoder 1's flag |
| Controller.JoyModeClearsFlags | src/pico_game_controller.c:151 | joystick mode clears every encoder's flag and commits the counter of each one that changed |
| Controller.ReactiveChangeRedraws | src/pico_game_controller.c:244-246 | while reactive, a switch change requests a redraw, and `update_lights` (lines 75-90) redraws the LEDs in the same cycle, each lit exactly when its switch is pressed |
| Controller.HostPatternPersists | src/pico_game_controller.c:72-77 | with no redraw pending and no switch change (lines 244-246), a cycle writes no LEDs and keeps the host pattern, even on the cycle that reaches the timeout |
| Sdvx.Phase | src/pico_sdvx.c:64-75 | the position of a pin pair along the quadrature cycle |
| Sdvx.Transition | src/pico_sdvx.c:64-75 | each table step is between −2 and 2 and congruent to the phase change modulo 4; it is zero exactly when the pins did not change, and ±2 exactly when both changed |
| Sdvx.TransitionTable | src/pico_sdvx.c:64-75 | the table's five classes of entries, each with its step |
| Sdvx.Index | src/pico_sdvx.c:60-63 | the table index keeps the previous pins in its low bits and the new pins in its high bits |
| Sdvx.Decode | src/pico_sdvx.c:60-79 | the step is added to the count and stored at the buffer index; the index advances modulo 10, the state becomes the pins just read, and a buffer of table steps stays one |
| Sdvx.DecodeAll | src/pico_sdvx.c:58-103 | after a series of interrupts the index has advanced once per interrupt modulo 10, the state is the last pin pair, and the buffer still holds table steps only |
| Sdvx.Init | src/pico_sdvx.c:37-42 | start-up: counts, every buffer slot and both indices zero, each pin state from its pin A (lines 122 and 132), no mouse update pending |
| Sdvx.Callback | src/pico_sdvx.c:58-103 | an interrupt on pin 0 or 1 decodes the left encoder from pins 0 and 1, any other the right one from pins 2 and 3, and a mouse update is requested |
| Sdvx.LeftRightSymmetric | src/pico_sdvx.c:80-101 | the right branch updates the right encoder exactly as the left branch updates the left one |
| Sdvx.SmoothDir | src/pico_sdvx.c:47-53 | the smoothed direction is the sum of all ten buffer entries |
| Sdvx.SumUpdate | src/pico_sdvx.c:78 | overwriting a buffer entry changes the sum by the difference |
| Sdvx.SumBounds | src/pico_sdvx.c:47-53 | a buffer of table steps sums to at most 2 per slot either way |
| Sdvx.SmoothDirBounded | src/pico_sdvx.c:47-53 | the smoothed direction of a buffer of table steps lies between −20 and 20 |
| Sdvx.DecodeKeepsSum | src/pico_sdvx.c:68-79 | while unwritten slots lie ahead, a decode keeps the buffer sum equal to the count |
| Sdvx.SmoothTracksCount | src/pico_sdvx.c:180-187 | from a cleared encoder, up to ten interrupts leave the smoothed direction equal to the count |
| Sdvx.PressReport | src/pico_sdvx.c:159-161 | a pressed switch's report has no modifier, its key in the first slot and zeros after |
| Sdvx.LowCount | src/pico_sdvx.c:156-163 | the number of pressed switches from i on is at most the number of switches left, and zero exactly when none of them is pressed |
| Sdvx.LowIndices | src/pico_sdvx.c:156-163 | the pressed switches, as many as there are, each pressed, in strictly increasing order |
| Sdvx.LowIndicesComplete | src/pico_sdvx.c:156-163 | every pressed switch is among them |
| Sdvx.PressedKeys | src/pico_sdvx.c:156-163 | one non-zero key per pressed switch, as many as `LowCount` gives and in switch order, each the keybind of the switch `LowIndices` lists at that place |
| Sdvx.PressedKeysComplete | src/pico_sdvx.c:156-163 | every pressed switch's key is listed |
| Sdvx.Keyboard | src/pico_sdvx.c:155-172 | with nothing pressed, the empty report alone; otherwise one report per pressed switch, in switch order |
| Sdvx.EmptyReportIffReleased | src/pico_sdvx.c:155-172 | the empty report goes out exactly when no switch is pressed |
| Sdvx.KeyboardReportsEveryPress | src/pico_sdvx.c:156-162 | every pressed switch gets a report carrying its key |
| Sdvx.Mirror | src/pico_sdvx.c:164-168 | LED i is lit exactly when switch i is pressed |
| Sdvx.Motion | src/pico_sdvx.c:180-181 | with smoothing compiled out, the mouse motion is the count times 10 |
| Sdvx.Cleared | src/pico_sdvx.c:182-187 | after a mouse report the count and every buffer slot are zero, and index and pin state are kept |
| Sdvx.KeyMode | src/pico_sdvx.c:152-190 | ready: LEDs mirror the switches and the keyboard reports go out; a pending mouse update sends both motions and clears counts and buffers, without clearing the request; busy, nothing happens |
| Sdvx.MouseReportRepeats | src/pico_sdvx.c:174-188 | after one interrupt, every later ready loop sends a mouse report, with zero motion the second time |

## Left out

- The USB transport (TinyUSB) is left out. `tud_task`, `tud_hid_ready` and the report calls become inputs and outputs: readiness is a parameter of each cycle, and reports are returned in order.
- `tud_hid_get_report_cb` is left out in both firmwares because it returns 0 and touches no state.
- The older firmware's `tud_hid_set_report_cb` is empty, so it is left out.
- Hardware set-up is left out: pin functions, pull-ups, PIO programs, DMA channels and `dma_handler`. The encoder counters are an input, one snapshot per cycle. The firmware may read a counter several times in a cycle while DMA rewrites it; the model does not represent such mid-cycle changes.
- Concurrency between the older firmware's interrupt and its loop is left out. Each interrupt and each loop pass is one atomic call, in any order.
- `board_delay` and the busy-wait before the mouse report are left out. The model assumes the wait ends and the report is sent.
- Controller.JoyMode: the axis bytes `joy0` and `joy1` are left out. They are computed in double precision and truncated to a byte; `EncoderDelta.AxisApprox` is an integer approximation only.
- EncoderDelta.Track: `cur_enc_val` is unbounded here, so a signed overflow of the C `int` position is not modelled. Neither is the product with `INT32_MIN`.
- Sdvx.Decode: `l_enc` and `r_enc` are unbounded here; their C `int` overflow is not modelled.
- Lighting.SetReport: reading past the end of the host's buffer is modelled as a single arbitrary byte, `beyond`. When the buffer is empty, byte 0 is read out of bounds too and is taken to be that same byte.
- The switch-to-GPIO and LED-to-GPIO pin numbers are left out. Switches and LEDs are identified by index.
- The cursor updates `enc_debounce_idx[i] = ++enc_debounce_idx[i] % ENC_DEBOUNCE_CYCLES` (src/pico_game_controller.c:251) and `l_smooth_idx = ++l_smooth_idx % smooth_size` (src/pico_sdvx.c:79, 100; `r_smooth_idx` likewise) modify one variable twice without a sequence point, which C leaves undefined. When the increment's store comes last the buffer index would leave its range at 9 (10 instead of 0). The model takes the assignment's store as the last one, which gives the intended modular advance.
- `SMOOTH_ENABLED` is false, as in the source; the smoothed path is shown by `Sdvx.SmoothTracksCount` rather than used.

=== FILE: board.dfy ===
/**
  The fixed wiring of the game controller firmware: how many switches and
  encoders there are, their polarity and the keys the switches send.
*/
module Board {
  import opened Words

  /** Number of switches, LEDs and lighting pattern bytes. */
  const SW_COUNT: nat := 11
  /** Number of quadrature encoders. */
  const ENC_COUNT: nat := 2
  /** Per-encoder polarity: neither encoder is reversed. */
  const ENC_REV: seq<bool> := [false, false]

  /**
    Keyboard-mode key of each switch, as HID usage IDs of the Keyboard/Keypad
    page (section 10 of the USB HID Usage Tables): D, F, J, K, C, M, A, B, 1, E, G.
  */
  const SW_KEYCODE: seq<u8> := [0x07, 0x09, 0x0D, 0x0E, 0x06, 0x10, 0x04, 0x05, 0x1E, 0x08, 0x0A]
}

=== FILE: controller.dfy ===
/**
  The game controller firmware's per-cycle state machine: the host's
  lighting command, `update_inputs`, the report function of the mode chosen
  at start-up, and `update_lights`, run in that order once per loop.

  The encoder counters are written by hardware; each cycle reads one
  snapshot of them, given as an input. USB readiness is an input too, and
  reports are returned rather than sent.
*/
module Controller {
  import opened Words
  import opened Board
  import Switches
  import Debounce
  import opened EncoderDelta
  import Lighting
  import Reports

  /** One encoder: `prev_enc_val`, `cur_enc_val`, its debounce window and `enc_changed`. */
  datatype Encoder = Encoder(prev: u32, pos: int, window: Debounce.Window, changed: bool)

  /** All state of the firmware; `buttons` is the joystick report's button field. */
  datatype Controller = Controller(
    switches: Switches.Switches,
    encoders: seq<Encoder>,
    lights: Lighting.Lights,
    buttons: u16)

  /** The sizes the firmware's arrays have. */
  predicate Shaped(c: Controller)
  {
    && Switches.Valid(c.switches)
    && |c.encoders| == ENC_COUNT
    && (forall i :: 0 <= i < ENC_COUNT ==> Debounce.WellFormed(c.encoders[i].window))
    && |c.lights.pattern| == SW_COUNT
  }

  predicate EncoderValid(e: Encoder)
  {
    Debounce.WellFormed(e.window) && Debounce.TailZero(e.window) && e.pos >= 0
  }

  /**
    What holds of every state the firmware reaches: the unreachable window
    slots stay zero, positions are non-negative and the lighting counter
    stays within its cap.
  */
  predicate Valid(c: Controller)
  {
    && Shaped(c)
    && (forall i :: 0 <= i < ENC_COUNT ==> EncoderValid(c.encoders[i]))
    && Lighting.Valid(c.lights)
  }

  /** The state `init` leaves. */
  function Init(): (c: Controller)
    ensures Valid(c)
    ensures !c.switches.changed && !c.lights.dirty && Lighting.Reactive(c.lights)
    ensures forall i :: 0 <= i < ENC_COUNT ==>
              c.encoders[i].prev == 0 && c.encoders[i].pos == 0 && !c.encoders[i].changed
  {
    var e := Encoder(0, 0, Debounce.Zeroed(), false);
    Controller(Switches.Released(), [e, e], Lighting.Initial(), 0)
  }

  /** The report format, fixed at start-up. */
  datatype Mode = Joystick | KeyboardMouse

  /** Switch 0 released at start-up selects the joystick, pressed selects keyboard and mouse. */
  function SelectMode(line0: bool): (m: Mode)
    ensures m == Joystick <==> line0
  {
    if line0 then Joystick else KeyboardMouse
  }

  // ---------------------------------------------------------------------------
  // update_inputs
  // ---------------------------------------------------------------------------

  /** One encoder's window and flag after this cycle's sample. */
  function SampleEncoder(e: Encoder, raw: u32): (r: Encoder)
    requires Debounce.WellFormed(e.window)
    ensures r.prev == e.prev && r.pos == e.pos && Debounce.WellFormed(r.window)
    ensures Debounce.Sampled(r.window, r.changed) == Debounce.Sample(e.window, raw, e.changed)
    ensures EncoderValid(e) ==> EncoderValid(r)
  {
    var s := Debounce.Sample(e.window, raw, e.changed);
    e.(window := s.window, changed := s.changed)
  }

  /** Every encoder's window takes its sample. */
  function SampleAll(encoders: seq<Encoder>, counters: seq<u32>): (r: seq<Encoder>)
    requires |encoders| == ENC_COUNT && |counters| == ENC_COUNT
    requires forall i :: 0 <= i < ENC_COUNT ==> Debounce.WellFormed(encoders[i].window)
    ensures |r| == ENC_COUNT
    ensures forall i :: 0 <= i < ENC_COUNT ==> r[i] == SampleEncoder(encoders[i], counters[i])
  {
    seq(ENC_COUNT, i requires 0 <= i < ENC_COUNT => SampleEncoder(encoders[i], counters[i]))
  }

  /**
    `update_inputs`: the switches are polled, a redraw is requested when the
    switches changed while the lights are reactive (an earlier request is
    never withdrawn), and every encoder's window takes its sample.
  */
  function UpdateInputs(c: Controller, levels: seq<bool>, counters: seq<u32>): (r: Controller)
    requires Shaped(c) && |levels| == SW_COUNT && |counters| == ENC_COUNT
    ensures Shaped(r) && (Valid(c) ==> Valid(r))
    ensures r.switches == Switches.Poll(c.switches, levels)
    ensures r.lights.dirty <==> c.lights.dirty || (r.switches.changed && Lighting.Reactive(c.lights))
    ensures r.lights.count == c.lights.count && r.lights.pattern == c.lights.pattern
    ensures |r.encoders| == ENC_COUNT &&
            forall i :: 0 <= i < ENC_COUNT ==> r.encoders[i] == SampleEncoder(c.encoders[i], counters[i])
    ensures r.buttons == c.buttons
  {
    var switches := Switches.Poll(c.switches, levels);
    var dirty := if switches.changed && c.lights.count >= Lighting.REACTIVE_TIMEOUT_MAX then true else c.lights.dirty;
    var encoders := SampleAll(c.encoders, counters);
    Controller(switches, encoders, c.lights.(dirty := dirty), c.buttons)
  }

  // ---------------------------------------------------------------------------
  // joy_mode
  // ---------------------------------------------------------------------------

  /**
    One encoder in joystick mode: a pending change moves the position by the
    signed step and commits the count; the flag is cleared either way.
  */
  function JoyEncoder(e: Encoder, raw: u32, rev: bool): (r: Encoder)
    ensures !r.changed && r.window == e.window
    ensures e.changed ==> r.prev == raw && r.pos == Track(e.pos, rev, raw, e.prev)
    ensures !e.changed ==> r.prev == e.prev && r.pos == e.pos
    ensures e.pos >= 0 ==> r.pos >= 0
  {
    if e.changed then Encoder(raw, Track(e.pos, rev, raw, e.prev), e.window, false)
    else e.(changed := false)
  }

  predicate AnyEncoderChanged(encoders: seq<Encoder>)
  {
    exists i :: 0 <= i < |encoders| && encoders[i].changed
  }

  /** The state after `joy_mode` and the button field of the report it sent, if any. */
  datatype JoyOut = JoyOut(state: Controller, report: Option<u16>)

  /**
    `joy_mode`: with the transport ready, a switch change packs bit `i` of
    the button field from switch `i`, leaves bits 11 to 15 clear and moves
    every snapshot forward; each encoder is handled by `JoyEncoder`; and a
    report is sent exactly when the switches or some encoder changed. With
    the transport busy nothing happens.
  */
  function JoyMode(c: Controller, counters: seq<u32>, ready: bool): (r: JoyOut)
    requires Shaped(c) && |counters| == ENC_COUNT
    ensures Shaped(r.state) && (Valid(c) ==> Valid(r.state))
    ensures !ready ==> r == JoyOut(c, None)
    ensures ready ==> (r.report.Some? <==> c.switches.changed || AnyEncoderChanged(c.encoders))
    ensures r.report.Some? ==> r.report.value == r.state.buttons
    ensures ready && c.switches.changed ==>
              && r.state.switches == Switches.JoyCommit(c.switches)
              && (forall k :: 0 <= k < SW_COUNT ==> (Bit(r.state.buttons, k) <==> c.switches.pressed[k]))
              && (forall k :: SW_COUNT <= k < 16 ==> !Bit(r.state.buttons, k))
    ensures ready && !c.switches.changed ==> r.state.switches == c.switches && r.state.buttons == c.buttons
    ensures ready ==> forall i :: 0 <= i < ENC_COUNT ==>
              r.state.encoders[i] == JoyEncoder(c.encoders[i], counters[i], ENC_REV[i])
    ensures r.state.lights == c.lights
  {
    if !ready then JoyOut(c, None)
    else
      var switches := if c.switches.changed then Switches.JoyCommit(c.switches) else c.switches;
      var buttons := if c.switches.changed then Reports.PackButtons(c.switches.pressed) else c.buttons;
      var encoders := seq(ENC_COUNT, i requires 0 <= i < ENC_COUNT => JoyEncoder(c.encoders[i], counters[i], ENC_REV[i]));
      var send := c.switches.changed || AnyEncoderChanged(c.encoders);
      var state := Controller(switches, encoders, c.lights, buttons);
      JoyOut(state, if send then Some(buttons) else None)
  }

  // ---------------------------------------------------------------------------
  // key_mode
  // ---------------------------------------------------------------------------

  /** The encoders, the `delta` array and `should_send_mouse` while the mouse loop runs. */
  datatype MouseScan = MouseScan(encoders: seq<Encoder>, deltas: seq<int>, send: bool)

  /**
    The inner loop of the mouse code: every encoder's delta is recomputed
    against its snapshot, and every snapshot takes the current count.
  */
  function Recompute(encoders: seq<Encoder>, counters: seq<u32>): (r: MouseScan)
    requires |encoders| == ENC_COUNT && |counters| == ENC_COUNT
    ensures |r.encoders| == ENC_COUNT && |r.deltas| == ENC_COUNT && r.send
    ensures forall k :: 0 <= k < ENC_COUNT ==>
              r.deltas[k] == Step(ENC_REV[k], counters[k], encoders[k].prev) &&
              r.encoders[k] == encoders[k].(prev := counters[k])
  {
    MouseScan(
      seq(ENC_COUNT, k requires 0 <= k < ENC_COUNT => encoders[k].(prev := counters[k])),
      seq(ENC_COUNT, k requires 0 <= k < ENC_COUNT => MouseStep(ENC_REV[k], counters[k], encoders[k].prev)),
      true)
  }

  /**
    Iteration `i` of the outer mouse loop: a pending change on encoder `i`
    runs the inner loop and then clears the flag of encoder 0 only.
  */
  function MouseIteration(scan: MouseScan, counters: seq<u32>, i: nat): (r: MouseScan)
    requires |scan.encoders| == ENC_COUNT && |scan.deltas| == ENC_COUNT && |counters| == ENC_COUNT && i < ENC_COUNT
    ensures |r.encoders| == ENC_COUNT && |r.deltas| == ENC_COUNT
    ensures !scan.encoders[i].changed ==> r == scan
    ensures scan.encoders[i].changed ==>
              && r.send
              && r.deltas == Recompute(scan.encoders, counters).deltas
              && r.encoders[0] == scan.encoders[0].(prev := counters[0], changed := false)
              && r.encoders[1] == scan.encoders[1].(prev := counters[1])
  {
    if scan.encoders[i].changed then
      var inner := Recompute(scan.encoders, counters);
      inner.(encoders := inner.encoders[0 := inner.encoders[0].(changed := false)])
    else scan
  }

  /**
    The mouse half of `key_mode`. A report is due exactly when some encoder
    changed; then every snapshot takes the current count, encoder 0's flag is
    cleared and encoder 1's flag is left as it was. With one flag set the
    deltas are both encoders' steps; with both set the second pass finds the
    snapshots already committed and both deltas are 0.
  */
  function MouseLoop(encoders: seq<Encoder>, counters: seq<u32>): (r: MouseScan)
    requires |encoders| == ENC_COUNT && |counters| == ENC_COUNT
    ensures |r.encoders| == ENC_COUNT && |r.deltas| == ENC_COUNT
    ensures r.send <==> encoders[0].changed || encoders[1].changed
    ensures !r.send ==> r.encoders == encoders && r.deltas == [0, 0]
    ensures r.send ==>
              && (forall k :: 0 <= k < ENC_COUNT ==> r.encoders[k].prev == counters[k])
              && !r.encoders[0].changed && r.encoders[1].changed == encoders[1].changed
    ensures forall k :: 0 <= k < ENC_COUNT ==>
              r.encoders[k].pos == encoders[k].pos && r.encoders[k].window == encoders[k].window
    ensures encoders[0].changed != encoders[1].changed ==>
              forall k :: 0 <= k < ENC_COUNT ==> r.deltas[k] == Step(ENC_REV[k], counters[k], encoders[k].prev)
    ensures encoders[0].changed && encoders[1].changed ==> r.deltas == [0, 0]
  {
    var first := MouseIteration(MouseScan(encoders, [0, 0], false), counters, 0);
    MouseIteration(first, counters, 1)
  }

  /** The state after `key_mode` and the keyboard and mouse reports it sent. */
  datatype KeyOut = KeyOut(state: Controller, keyboard: Option<seq<bv8>>, mouse: Option<Reports.MouseReport>)

  /**
    `key_mode`: with the transport ready, a switch change sends the keyboard
    bitmap of the pressed switches and moves the snapshot forward for
    pressed switches only; the mouse half runs as `MouseLoop` describes.
    With the transport busy nothing happens.
  */
  function KeyMode(c: Controller, counters: seq<u32>, ready: bool): (r: KeyOut)
    requires Shaped(c) && |counters| == ENC_COUNT
    ensures Shaped(r.state) && (Valid(c) ==> Valid(r.state))
    ensures !ready ==> r == KeyOut(c, None, None)
    ensures ready ==> (r.keyboard.Some? <==> c.switches.changed)
    ensures r.keyboard.Some? ==> r.keyboard.value == Reports.Nkro(c.switches.pressed, SW_KEYCODE)
    ensures ready && c.switches.changed ==> r.state.switches == Switches.KeyCommit(c.switches)
    ensures ready && !c.switches.changed ==> r.state.switches == c.switches
    ensures ready ==>
              var scan := MouseLoop(c.encoders, counters);
              r.state.encoders == scan.encoders &&
              (r.mouse.Some? <==> scan.send) &&
              (r.mouse.Some? ==> r.mouse.value == Reports.Mouse(scan.deltas[0], scan.deltas[1]))
    ensures r.state.lights == c.lights && r.state.buttons == c.buttons
  {
    if !ready then KeyOut(c, None, None)
    else
      var keyboard := if c.switches.changed then Some(Reports.Nkro(c.switches.pressed, SW_KEYCODE)) else None;
      var switches := if c.switches.changed then Switches.KeyCommit(c.switches) else c.switches;
      var scan := MouseLoop(c.encoders, counters);
      var mouse := if scan.send then Some(Reports.Mouse(scan.deltas[0], scan.deltas[1])) else None;
      assert forall i :: 0 <= i < ENC_COUNT ==> scan.encoders[i].window == c.encoders[i].window;
      KeyOut(c.(switches := switches, encoders := scan.encoders), keyboard, mouse)
  }

  // ---------------------------------------------------------------------------
  // One loop iteration
  // ---------------------------------------------------------------------------

  /** The host's lighting command, as the transport's callback receives it. */
  datatype HostWrite = HostWrite(reportId: u8, reportType: Lighting.ReportType, buffer: seq<u8>, beyond: u8)

  /** What one cycle sees: a host write if one arrived, the lines, the counters, transport readiness. */
  datatype Inputs = Inputs(host: Option<HostWrite>, levels: seq<bool>, counters: seq<u32>, ready: bool)

  predicate InputsFit(input: Inputs)
  {
    |input.levels| == SW_COUNT && |input.counters| == ENC_COUNT
  }

  /** A report handed to the transport. */
  datatype Report =
    | JoystickReport(buttons: u16)
    | KeyboardReport(bitmap: seq<bv8>)
    | MouseSent(mouse: Reports.MouseReport)

  /** The state after a cycle, the reports sent in order, and the LED levels written, if any. */
  datatype Outcome = Outcome(state: Controller, reports: seq<Report>, leds: Option<seq<bool>>)

  /** The reports one mode can send. */
  predicate OfMode(report: Report, mode: Mode)
  {
    if mode == Joystick then report.JoystickReport? else !report.JoystickReport?
  }

  /** The reports the mode function sent this cycle, and the state after it. */
  function ModeStep(c: Controller, mode: Mode, counters: seq<u32>, ready: bool): (r: Outcome)
    requires Shaped(c) && |counters| == ENC_COUNT
    ensures Shaped(r.state) && (Valid(c) ==> Valid(r.state)) && r.leds.None?
    ensures forall k :: 0 <= k < |r.reports| ==> OfMode(r.reports[k], mode)
    ensures mode == Joystick ==> |r.reports| <= 1
    ensures |r.reports| <= 2
    ensures !ready ==> r.reports == [] && r.state == c
    ensures r.state.lights == c.lights && r.state.switches.pressed == c.switches.pressed
    ensures mode == Joystick ==>
              var j := JoyMode(c, counters, ready);
              r.state == j.state && r.reports == (if j.report.Some? then [JoystickReport(j.report.value)] else [])
    ensures mode == KeyboardMouse ==>
              var k := KeyMode(c, counters, ready);
              && r.state == k.state
              && r.reports == (if k.keyboard.Some? then [KeyboardReport(k.keyboard.value)] else []) +
                              (if k.mouse.Some? then [MouseSent(k.mouse.value)] else [])
  {
    match mode
    case Joystick =>
      var j := JoyMode(c, counters, ready);
      Outcome(j.state, if j.report.Some? then [JoystickReport(j.report.value)] else [], None)
    case KeyboardMouse =>
      var k := KeyMode(c, counters, ready);
      var keyboard := if k.keyboard.Some? then [KeyboardReport(k.keyboard.value)] else [];
      var mouse := if k.mouse.Some? then [MouseSent(k.mouse.value)] else [];
      Outcome(k.state, keyboard + mouse, None)
  }

  /** The lights after the transport task, which may deliver a host lighting command. */
  function HostLights(l: Lighting.Lights, host: Option<HostWrite>): (r: Lighting.Lights)
    requires |l.pattern| == SW_COUNT
    ensures |r.pattern| == SW_COUNT && (Lighting.Valid(l) ==> Lighting.Valid(r))
    ensures host.Some? ==>
              r == Lighting.SetReport(l, host.value.reportId, host.value.reportType, host.value.buffer, host.value.beyond)
    ensures host.None? ==> r == l
  {
    match host
    case Some(w) => Lighting.SetReport(l, w.reportId, w.reportType, w.buffer, w.beyond)
    case None => l
  }

  /** The state the mode function sees: after the host command and `update_inputs`. */
  function Polled(c: Controller, input: Inputs): (r: Controller)
    requires Shaped(c) && InputsFit(input)
    ensures Shaped(r) && (Valid(c) ==> Valid(r))
    ensures r.switches == Switches.Poll(c.switches, input.levels)
    ensures var l := HostLights(c.lights, input.host);
            && r.lights.count == l.count && r.lights.pattern == l.pattern
            && (r.lights.dirty <==> l.dirty || (r.switches.changed && Lighting.Reactive(l)))
    ensures |r.encoders| == ENC_COUNT &&
            forall i :: 0 <= i < ENC_COUNT ==> r.encoders[i] == SampleEncoder(c.encoders[i], input.counters[i])
    ensures r.buttons == c.buttons
  {
    UpdateInputs(c.(lights := HostLights(c.lights, input.host)), input.levels, input.counters)
  }

  /**
    One iteration of the main loop: the transport task may deliver a host
    lighting command, then `update_inputs`, the mode function and
    `update_lights` run in turn. The firmware's invariants are kept and only
    reports of the selected mode are sent.
  */
  function Cycle(c: Controller, mode: Mode, input: Inputs): (r: Outcome)
    requires Shaped(c) && InputsFit(input)
    ensures Shaped(r.state) && (Valid(c) ==> Valid(r.state))
    ensures forall k :: 0 <= k < |r.reports| ==> OfMode(r.reports[k], mode)
    ensures var stepped := ModeStep(Polled(c, input), mode, input.counters, input.ready);
            r.reports == stepped.reports && r.state.switches == stepped.state.switches &&
            r.state.encoders == stepped.state.encoders && r.state.buttons == stepped.state.buttons
    ensures var p := Polled(c, input);
            var redraw := Lighting.UpdateLights(p.lights, p.switches.pressed);
            r.leds == redraw.leds && r.state.lights == redraw.lights
  {
    var stepped := ModeStep(Polled(c, input), mode, input.counters, input.ready);
    var redraw := Lighting.UpdateLights(stepped.state.lights, stepped.state.switches.pressed);
    Outcome(stepped.state.(lights := redraw.lights), stepped.reports, redraw.leds)
  }

  /**
    All reports sent over a run of cycles, and the state the run ends in:
    the mode chosen at start-up decides every report, whatever the inputs,
    and the firmware's invariants hold at the end of every run.
  */
  function Run(c: Controller, mode: Mode, inputs: seq<Inputs>): (r: Outcome)
    requires Shaped(c) && AllFit(inputs)
    ensures Shaped(r.state) && (Valid(c) ==> Valid(r.state))
    ensures AllOfMode(r.reports, mode)
    decreases |inputs|
  {
    if |inputs| == 0 then Outcome(c, [], None)
    else
      var first := Cycle(c, mode, inputs[0]);
      assert AllFit(inputs[1..]) by {
        forall k | 0 <= k < |inputs| - 1
          ensures InputsFit(inputs[1..][k])
        {
          assert inputs[1..][k] == inputs[k + 1];
        }
      }
      var rest := Run(first.state, mode, inputs[1..]);
      ConcatOfMode(first.reports, rest.reports, mode);
      Outcome(rest.state, first.reports + rest.reports, rest.leds)
  }

  predicate AllFit(inputs: seq<Inputs>)
  {
    forall k :: 0 <= k < |inputs| ==> InputsFit(inputs[k])
  }

  predicate AllOfMode(reports: seq<Report>, mode: Mode)
  {
    forall k :: 0 <= k < |reports| ==> OfMode(reports[k], mode)
  }

  lemma ConcatOfMode(a: seq<Report>, b: seq<Report>, mode: Mode)
    requires AllOfMode(a, mode) && AllOfMode(b, mode)
    ensures AllOfMode(a + b, mode)
  {
    forall k | 0 <= k < |a + b|
      ensures OfMode((a + b)[k], mode)
    {
      if k >= |a| {
        assert (a + b)[k] == b[k - |a|];
      }
    }
  }

  // ---------------------------------------------------------------------------
  // Lighting across the loop
  // ---------------------------------------------------------------------------

  /**
    In the reactive regime, a cycle whose poll sees a switch change redraws
    every LED in the same cycle, lit exactly where the line is low.
  */
  lemma ReactiveChangeRedraws(c: Controller, mode: Mode, input: Inputs)
    requires Shaped(c) && InputsFit(input) && input.host.None?
    requires Lighting.Reactive(c.lights) && Switches.Poll(c.switches, input.levels).changed
    ensures var r := Cycle(c, mode, input);
            r.leds.Some? && |r.leds.value| == SW_COUNT &&
            forall i :: 0 <= i < SW_COUNT ==> (r.leds.value[i] <==> !input.levels[i])
  {
    var p := Polled(c, input);
    assert p.lights.dirty && Lighting.Reactive(p.lights);
    var redraw := Lighting.UpdateLights(p.lights, p.switches.pressed);
    assert Lighting.Reactive(redraw.lights);
  }

  /**
    Without a host command or a switch change, a cycle writes no LED, even
    the cycle in which the timeout expires: the last host pattern stays on
    the LEDs, and since no redraw is left pending the same holds of the next
    such cycle.
  */
  lemma HostPatternPersists(c: Controller, mode: Mode, input: Inputs)
    requires Shaped(c) && InputsFit(input) && input.host.None?
    requires !c.lights.dirty && !Switches.Poll(c.switches, input.levels).changed
    ensures var r := Cycle(c, mode, input);
            && r.leds.None? && !r.state.lights.dirty && r.state.lights.pattern == c.lights.pattern
            && (c.lights.count == Lighting.REACTIVE_TIMEOUT_MAX - 1 ==> Lighting.Reactive(r.state.lights))
  {
    var p := Polled(c, input);
    assert !p.lights.dirty;
  }

  // ---------------------------------------------------------------------------
  // Keyboard-mode behaviour across cycles
  // ---------------------------------------------------------------------------

  /**
    In keyboard mode a switch that was pressed and is now released keeps its
    snapshot at "pressed", so every ready cycle while it stays released
    sends a keyboard report again and leaves the snapshot as it was.
  */
  lemma KeyModeReleaseRepeats(c: Controller, input: Inputs, i: nat)
    requires Shaped(c) && InputsFit(input) && input.ready && i < SW_COUNT
    requires c.switches.prev[i] && input.levels[i]
    ensures var r := Cycle(c, KeyboardMouse, input);
            r.state.switches.prev[i] && |r.reports| > 0 && r.reports[0].KeyboardReport?
  {
    var polled := Polled(c, input);
    assert polled.switches.pressed[i] != polled.switches.prev[i];
    ChangedKeyModeSendsKeyboard(polled, input.counters);
  }

  /** A pending switch change in keyboard mode sends the keyboard report first and commits the snapshot. */
  lemma ChangedKeyModeSendsKeyboard(p: Controller, counters: seq<u32>)
    requires Shaped(p) && |counters| == ENC_COUNT && p.switches.changed
    ensures var stepped := ModeStep(p, KeyboardMouse, counters, true);
            |stepped.reports| > 0 && stepped.reports[0].KeyboardReport? &&
            stepped.state.switches == Switches.KeyCommit(p.switches)
  {
    var k := KeyMode(p, counters, true);
    assert k.keyboard.Some?;
  }

  /**
    In keyboard mode, when both encoders' flags are set the mouse report
    carries no motion, yet both snapshots are committed: the motion is lost.
  */
  lemma KeyModeBothChangedLosesMotion(c: Controller, counters: seq<u32>)
    requires Shaped(c) && |counters| == ENC_COUNT
    requires c.encoders[0].changed && c.encoders[1].changed
    ensures var r := KeyMode(c, counters, true);
            r.mouse == Some(Reports.Mouse(0, 0)) &&
            forall k :: 0 <= k < ENC_COUNT ==> r.state.encoders[k].prev == counters[k]
  {
  }

  /** Keyboard mode never clears encoder 1's flag. */
  lemma KeyModeKeepsSecondFlag(c: Controller, counters: seq<u32>, ready: bool)
    requires Shaped(c) && |counters| == ENC_COUNT
    ensures KeyMode(c, counters, ready).state.encoders[1].changed == c.encoders[1].changed
  {
  }

  /** Joystick mode clears every encoder's flag and commits each pending change. */
  lemma JoyModeClearsFlags(c: Controller, counters: seq<u32>)
    requires Shaped(c) && |counters| == ENC_COUNT
    ensures var r := JoyMode(c, counters, true);
            forall i :: 0 <= i < ENC_COUNT ==>
              !r.state.encoders[i].changed &&
              (c.encoders[i].changed ==> r.state.encoders[i].prev == counters[i])
  {
  }
}

=== FILE: debounce.dfy ===
/**
  Encoder debounce filter: a window of recent counter samples per encoder,
  written circularly at a cursor, and the scan that decides whether a change
  of the counter is accepted.

  The window has `ENC_DEBOUNCE_CYCLES` slots but its cursor is a `uint8_t`,
  so only slots 0 to 255 are ever written. The pairwise test of the scan
  subtracts two `uint32_t` samples, so "less than zero" never holds and
  "greater than zero" means "different".
*/
module Debounce {
  import opened Words

  /** Number of slots in each encoder's window. */
  const ENC_DEBOUNCE_CYCLES: nat := 10000

  /** `enc_debounce_val[i]` and `enc_debounce_idx[i]` of one encoder. */
  datatype Window = Window(samples: seq<u32>, cursor: u8)

  predicate WellFormed(w: Window)
  {
    |w.samples| == ENC_DEBOUNCE_CYCLES
  }

  /** The slots the cursor can never reach still hold their initial zero. */
  predicate TailZero(w: Window)
    requires WellFormed(w)
  {
    forall k :: U8_LIMIT <= k < ENC_DEBOUNCE_CYCLES ==> w.samples[k] == 0
  }

  /** The zero-initialised window `init` leaves. */
  function Zeroed(): (w: Window)
    ensures WellFormed(w) && TailZero(w) && w.cursor == 0
    ensures forall k :: 0 <= k < ENC_DEBOUNCE_CYCLES ==> w.samples[k] == 0
  {
    Window(seq(ENC_DEBOUNCE_CYCLES, _ => 0), 0)
  }

  /**
    The cursor step `++idx % ENC_DEBOUNCE_CYCLES` on a `uint8_t`: the
    increment wraps at 256 before the modulo is taken, so the cursor returns
    to slot 0 after slot 255 instead of moving on to slot 256.
  */
  function Advance(cursor: u8): (next: u8)
    ensures cursor < 255 ==> next == cursor + 1
    ensures cursor == 255 ==> next == 0 && (cursor + 1) % ENC_DEBOUNCE_CYCLES == 256
  {
    ((cursor + 1) % U8_LIMIT) % ENC_DEBOUNCE_CYCLES
  }

  /** The slot the new sample is compared with: `(idx + W + 1) % W`, the one after the cursor. */
  function ComparedSlot(next: u8): (k: nat)
    ensures k == next + 1 && k < ENC_DEBOUNCE_CYCLES
  {
    (next + ENC_DEBOUNCE_CYCLES + 1) % ENC_DEBOUNCE_CYCLES
  }

  /** `int dir = val[0] - val[1]`: an unsigned difference stored into an `int`. */
  function Direction(s: seq<u32>): (dir: int)
    requires |s| >= 2
    ensures dir == 0 <==> s[0] == s[1]
    ensures dir < 0 <==> Sub32(s[0], s[1]) >= INT32_LIMIT
  {
    ToInt32(Sub32(s[0], s[1]))
  }

  /**
    The scan's test of the pair `a`, `b` as written:
    `dir > 0 && a - b < 0 || dir < 0 && a - b > 0` with `a - b` unsigned.
    The unsigned `< 0` never holds and `> 0` only means the pair differs, so
    the test fires only when `dir` is negative, and then for any unequal pair.
  */
  function Reverses(dir: int, a: u32, b: u32): (reverses: bool)
    ensures reverses <==> dir < 0 && a != b
  {
    (dir > 0 && Sub32(a, b) < 0) || (dir < 0 && Sub32(a, b) > 0)
  }

  /**
    `dir` in terms of the first two slots: negative when slot 1 exceeds
    slot 0 by at most 2^31, positive when slot 0 exceeds slot 1 by less
    than 2^31. Slot 0 holds the older sample except on the cycle the cursor
    has just rewritten it, so a growing counter gives a negative `dir` on
    every cycle except the one right after slot 0 is rewritten
    (`GrowingCounterAcceptedAfterSlot0Rewrite`).
  */
  lemma DirectionBySlots(s: seq<u32>)
    requires |s| >= 2
    ensures s[0] < s[1] && s[1] - s[0] <= INT32_LIMIT ==> Direction(s) < 0
    ensures s[1] < s[0] && s[0] - s[1] < INT32_LIMIT ==> Direction(s) > 0
  {
  }

  /** The scan from pair `j`, `j + 1` to the end of the window; it stops at the first reversal. */
  function ScanFrom(s: seq<u32>, dir: int, j: nat): (cancel: bool)
    decreases |s| - j
    ensures cancel <==> exists k :: j <= k && k + 1 < |s| && Reverses(dir, s[k], s[k + 1])
  {
    if j + 1 >= |s| then false
    else if Reverses(dir, s[j], s[j + 1]) then true
    else ScanFrom(s, dir, j + 1)
  }

  /** Every slot from 1 on holds the same sample. */
  predicate Steady(s: seq<u32>)
    requires |s| >= 2
  {
    forall k :: 1 <= k < |s| ==> s[k] == s[1]
  }

  /**
    What the scan actually decides: a change is cancelled exactly when `dir`
    is negative (slot 1 exceeds slot 0, modulo 2^32, by at most 2^31) and
    slots 1 onwards are not all equal. With `dir` zero or positive the change
    is never cancelled, whatever the rest of the window holds.
  */
  lemma {:induction false} ScanCancelsIff(s: seq<u32>)
    requires |s| >= 2
    ensures ScanFrom(s, Direction(s), 1) <==> Direction(s) < 0 && !Steady(s)
  {
    var dir := Direction(s);
    if dir < 0 && !Steady(s) {
      var m :| 1 <= m < |s| && s[m] != s[1];
      var k := FirstDifference(s, m);
      assert Reverses(dir, s[k], s[k + 1]);
    }
    if ScanFrom(s, dir, 1) {
      var k :| 1 <= k && k + 1 < |s| && Reverses(dir, s[k], s[k + 1]);
      assert s[k] != s[k + 1];
    }
  }

  /** Between slot 1 and a slot that differs from it lies an adjacent unequal pair. */
  lemma {:induction false} FirstDifference(s: seq<u32>, m: nat) returns (k: nat)
    requires 1 <= m < |s| && s[m] != s[1]
    ensures 1 <= k && k + 1 <= m && s[k] != s[k + 1]
    decreases m
  {
    if s[m - 1] != s[m] {
      k := m - 1;
    } else {
      k := FirstDifference(s, m - 1);
    }
  }

  /** A window after one sample, and the encoder's `enc_changed` flag. */
  datatype Sampled = Sampled(window: Window, changed: bool)

  /**
    One cycle of the filter for one encoder: the sample is stored at the
    cursor, the cursor advances, and if the sample differs from the compared
    slot the flag is set unless the scan finds a reversal. A sample equal to
    the compared slot leaves the flag as it was.
  */
  function Sample(w: Window, raw: u32, changed: bool): (r: Sampled)
    requires WellFormed(w)
    ensures WellFormed(r.window) && r.window.cursor == Advance(w.cursor)
    ensures r.window.samples[w.cursor] == raw
    ensures forall k :: 0 <= k < ENC_DEBOUNCE_CYCLES && k != w.cursor ==> r.window.samples[k] == w.samples[k]
    ensures TailZero(w) ==> TailZero(r.window)
    ensures var s := r.window.samples;
            raw != s[r.window.cursor + 1] ==>
              (r.changed <==> !exists j :: 1 <= j < ENC_DEBOUNCE_CYCLES - 1 && Reverses(Direction(s), s[j], s[j + 1]))
    ensures raw == r.window.samples[r.window.cursor + 1] ==> r.changed == changed
  {
    var s := w.samples[w.cursor := raw];
    var next := Advance(w.cursor);
    var changed' :=
      if raw != s[ComparedSlot(next)] then !ScanFrom(s, Direction(s), 1)
      else changed;
    Sampled(Window(s, next), changed')
  }

  /**
    The accepted changes in closed form: a sample that differs from the
    compared slot sets the flag exactly when `dir` is not negative (slot 1
    does not exceed slot 0 by 2^31 or less) or slots 1 onwards are all equal.
  */
  lemma SampleAccepts(w: Window, raw: u32, changed: bool)
    requires WellFormed(w)
    ensures var r := Sample(w, raw, changed);
            var s := r.window.samples;
            raw != s[r.window.cursor + 1] ==> (r.changed <==> Direction(s) >= 0 || Steady(s))
  {
    var r := Sample(w, raw, changed);
    ScanCancelsIff(r.window.samples);
  }

  /**
    Once the cursor wraps from 255 to 0 the compared slot is slot 1, and when
    it reaches 255 the compared slot is slot 256, which stays zero: any
    non-zero sample then counts as a difference.
  */
  lemma ComparedWithZeroAtWrap(w: Window, raw: u32, changed: bool)
    requires WellFormed(w) && TailZero(w) && w.cursor == 254 && raw != 0
    ensures var r := Sample(w, raw, changed);
            var s := r.window.samples;
            r.changed <==> Direction(s) >= 0 || Steady(s)
  {
    SampleAccepts(w, raw, changed);
  }

  /**
    A counter growing from start-up: the first sample lands in slot 0, so
    `dir` is positive and the change is accepted. The next ones land in
    slots 1 and 2, after slot 0, so `dir` is negative, some pair from slot 1
    on differs, and the change is cancelled; a counter that grows every
    cycle is accepted only once slot 0 is rewritten, 256 samples later.
  */
  lemma GrowingCounterAcceptedAfterSlot0Rewrite()
    ensures var first := Sample(Zeroed(), 10, false);
            var second := Sample(first.window, 20, first.changed);
            var third := Sample(second.window, 30, second.changed);
            && Direction(first.window.samples) > 0 && first.changed
            && Direction(second.window.samples) < 0 && !second.changed
            && Direction(third.window.samples) < 0 && !third.changed
  {
    var first := Sample(Zeroed(), 10, false);
    var s1 := first.window.samples;
    assert s1[0] == 10 && s1[1] == 0 && s1[2] == 0;
    SampleAccepts(Zeroed(), 10, false);
    var second := Sample(first.window, 20, first.changed);
    var s2 := second.window.samples;
    assert s2[0] == 10 && s2[1] == 20 && s2[2] == 0 && s2[3] == 0;
    SampleAccepts(first.window, 20, first.changed);
    assert !Steady(s2) by { assert s2[2] != s2[1]; }
    var third := Sample(second.window, 30, second.changed);
    var s3 := third.window.samples;
    assert s3[0] == 10 && s3[1] == 20 && s3[2] == 30 && s3[4] == 0;
    SampleAccepts(second.window, 30, second.changed);
    assert !Steady(s3) by { assert s3[2] != s3[1]; }
  }
}

=== FILE: delta.dfy ===
/**
  Encoder delta and position: a validated counter change becomes a signed
  step, with wraparound of the 32-bit counter detected by a rollover
  threshold, and the step is folded into the encoder's position.

  The firmware stores the unsigned difference of two readings in an `int`,
  so a distance of 2^31 or more reads as negative before the rollover test;
  `RawDelta` follows the code, `NaturalDelta` is the same text read with
  natural numbers, and the lemmas below relate the two.
*/
module EncoderDelta {
  import opened Words

  const ENC_PPR: nat := 24
  /** Counter units per revolution: four per pulse. */
  const ENC_PULSE: nat := ENC_PPR * 4
  /** Distances above this are taken for a wrapped counter. */
  const ENC_ROLLOVER: nat := ENC_PULSE * 2

  /** `delta` and `changeType` as the firmware leaves them. */
  datatype Delta = Delta(delta: int, changeType: int)

  /** The motion a delta stands for: `delta * changeType`. */
  function Signed(d: Delta): int
  {
    d.delta * d.changeType
  }

  /** Distance between two readings taken as naturals. */
  function Distance(raw: u32, prev: u32): nat
  {
    if raw > prev then raw - prev else prev - raw
  }

  /** The direction before the rollover test: positive exactly when the counter grew. */
  function Heading(raw: u32, prev: u32): int
  {
    if raw > prev then 1 else -1
  }

  /**
    The delta as the firmware computes it. Whatever the readings, the motion
    it stands for is congruent to `raw - prev` modulo 2^32 and no longer
    than 2^31; the direction is flipped exactly when the distance is above
    the threshold but still reads as a positive `int`.
  */
  function RawDelta(raw: u32, prev: u32): (d: Delta)
    ensures d.changeType == 1 || d.changeType == -1
    ensures -INT32_LIMIT <= Signed(d) <= INT32_LIMIT
    ensures (Signed(d) - (raw - prev)) % U32_LIMIT == 0
    ensures d.changeType != Heading(raw, prev) <==> ENC_ROLLOVER < Distance(raw, prev) < INT32_LIMIT
  {
    var delta := if raw > prev then ToInt32(Sub32(raw, prev)) else ToInt32(Sub32(prev, raw));
    var changeType := if raw > prev then 1 else -1;
    if delta > ENC_ROLLOVER then
      Delta(ToInt32(Wrap32(UINT32_MAX - Wrap32(delta) + 1)), -changeType)
    else
      Delta(delta, changeType)
  }

  /**
    The motion `RawDelta` yields, in closed form: below 2^31 it is the plain
    distance in the counter's direction, even above the threshold; from 2^31
    on it is the wrapped distance against the counter's direction.
  */
  lemma RawDeltaMotion(raw: u32, prev: u32)
    ensures var dist := Distance(raw, prev);
            Signed(RawDelta(raw, prev)) ==
              if dist < INT32_LIMIT then Heading(raw, prev) * dist
              else -Heading(raw, prev) * (U32_LIMIT - dist)
  {
  }

  /**
    The same lines read with natural numbers: a distance above the threshold
    is taken for a wrapped counter, the direction is flipped and the
    magnitude becomes `2^32 - distance`.
  */
  function NaturalDelta(raw: u32, prev: u32): (d: Delta)
    ensures Distance(raw, prev) > ENC_ROLLOVER ==>
              d.changeType == -Heading(raw, prev) && d.delta == U32_LIMIT - Distance(raw, prev)
    ensures Distance(raw, prev) <= ENC_ROLLOVER ==>
              d.changeType == Heading(raw, prev) && d.delta == Distance(raw, prev)
    ensures (Signed(d) - (raw - prev)) % U32_LIMIT == 0
  {
    var dist := Distance(raw, prev);
    var changeType := Heading(raw, prev);
    if dist > ENC_ROLLOVER then Delta(U32_LIMIT - dist, -changeType) else Delta(dist, changeType)
  }

  /**
    The two readings give the same motion exactly when the distance is
    within the threshold or at least 2^31: for every plausible motion of a
    cycle, in either direction across the wrap, the code is right.
  */
  lemma ReadingsAgree(raw: u32, prev: u32)
    ensures Signed(RawDelta(raw, prev)) == Signed(NaturalDelta(raw, prev)) <==>
              Distance(raw, prev) <= ENC_ROLLOVER || Distance(raw, prev) >= INT32_LIMIT
  {
    RawDeltaMotion(raw, prev);
  }

  /**
    Three counts short of wrapping to one: the `int` difference is -4, the
    rollover test does not fire, and the motion is still +4. The natural
    reading flips instead and reaches the same motion.
  */
  lemma WrapExample()
    ensures RawDelta(1, UINT32_MAX - 2) == Delta(-4, -1)
    ensures NaturalDelta(1, UINT32_MAX - 2) == Delta(4, 1)
    ensures Signed(RawDelta(1, UINT32_MAX - 2)) == 4
  {
  }

  /** The polarity factor `ENC_REV[i] ? 1 : -1`. */
  function Polarity(rev: bool): int
  {
    if rev then 1 else -1
  }

  /**
    The signed step `(ENC_REV[i] ? 1 : -1) * delta * changeType` for a counter
    moving from `prev` to `raw`: congruent to the polarity times the counter
    difference, and zero when the counter did not move.
  */
  function Step(rev: bool, raw: u32, prev: u32): (step: int)
    ensures (step - Polarity(rev) * (raw - prev)) % U32_LIMIT == 0
    ensures -INT32_LIMIT <= step <= INT32_LIMIT
    ensures raw == prev ==> step == 0
  {
    var d := RawDelta(raw, prev);
    Polarity(rev) * d.delta * d.changeType
  }

  /** The keyboard mode's `delta *= changeType * (ENC_REV[i] ? 1 : -1)`: the same step. */
  function MouseStep(rev: bool, raw: u32, prev: u32): (step: int)
    ensures step == Step(rev, raw, prev)
  {
    var d := RawDelta(raw, prev);
    d.delta * (d.changeType * Polarity(rev))
  }

  /**
    The correction `while (cur < 0) cur = ENC_PULSE - cur`. The loop body runs
    at most once and leaves a non-negative position, but a negative input
    lands above `ENC_PULSE`, not back inside one revolution.
  */
  function Fold(cur: int): (r: int)
    decreases if cur < 0 then 1 else 0
    ensures r >= 0
    ensures cur >= 0 ==> r == cur
    ensures cur < 0 ==> r == ENC_PULSE - cur && r > ENC_PULSE
  {
    if cur < 0 then Fold(ENC_PULSE - cur) else cur
  }

  /** One step back from position 0 gives 97, where reduction modulo a revolution gives 95. */
  lemma FoldOneBack()
    ensures Fold(-1) == 97 && (-1) % ENC_PULSE == 95
  {
  }

  /** The position after a consumed change. */
  function Track(pos: int, rev: bool, raw: u32, prev: u32): (r: int)
    ensures r >= 0
    ensures pos + Step(rev, raw, prev) >= 0 ==> r == pos + Step(rev, raw, prev)
    ensures pos + Step(rev, raw, prev) < 0 ==> r == ENC_PULSE - (pos + Step(rev, raw, prev))
  {
    Fold(pos + Step(rev, raw, prev))
  }

  /**
    The integer counterpart of the axis byte `(cur / ENC_PULSE) * 256`; the
    firmware computes it in floating point, so this is an approximation.
  */
  function AxisApprox(pos: int): (axis: int)
    ensures 0 <= pos < ENC_PULSE ==> 0 <= axis < 256
    ensures 0 <= pos ==> axis * ENC_PULSE <= pos * 256 < (axis + 1) * ENC_PULSE
  {
    pos * 256 / ENC_PULSE
  }

  /** Half a revolution, position 48, gives axis 128. */
  lemma AxisHalfTurn()
    ensures AxisApprox(ENC_PULSE / 2) == 128
  {
  }
}

=== FILE: lighting.dfy ===
/**
  Reactive lighting: a saturating timeout counter chooses between the
  pattern the host last wrote and the live switch state, and a dirty flag
  gates every write to the LED lines. The host writes its pattern with an
  output report whose first byte repeats the report id.
*/
module Lighting {
  import opened Words
  import opened Board

  /** Cycles without a host write before the LEDs follow the switches again. */
  const REACTIVE_TIMEOUT_MAX: nat := 100000
  /** Report id of the host's lighting command. */
  const LIGHTS_REPORT_ID: nat := 2
  /** `sizeof(lights_report)`: one byte per switch. */
  const LIGHTS_REPORT_SIZE: nat := SW_COUNT

  /** `reactive_timeout_count`, `leds_changed` and `lights_report.buttons`. */
  datatype Lights = Lights(count: nat, dirty: bool, pattern: seq<u8>)

  predicate Valid(l: Lights)
  {
    l.count <= REACTIVE_TIMEOUT_MAX && |l.pattern| == SW_COUNT
  }

  /** In the reactive regime the LEDs mirror the switches. */
  predicate Reactive(l: Lights)
  {
    l.count >= REACTIVE_TIMEOUT_MAX
  }

  /** Start-up state: reactive, nothing to redraw, an all-zero host pattern. */
  function Initial(): (l: Lights)
    ensures Valid(l) && Reactive(l) && !l.dirty
  {
    Lights(REACTIVE_TIMEOUT_MAX, false, seq(SW_COUNT, _ => 0))
  }

  /** The lights after one cycle, and the LED levels written, if any. */
  datatype Redraw = Redraw(lights: Lights, leds: Option<seq<bool>>)

  /** The LED levels for the regime `l` is in. */
  function LedLevels(l: Lights, pressed: seq<bool>): (leds: seq<bool>)
    requires |l.pattern| == SW_COUNT && |pressed| == SW_COUNT
    ensures |leds| == SW_COUNT
    ensures Reactive(l) ==> forall i :: 0 <= i < SW_COUNT ==> leds[i] == pressed[i]
    ensures !Reactive(l) ==> forall i :: 0 <= i < SW_COUNT ==> (leds[i] <==> l.pattern[i] != 0)
  {
    seq(SW_COUNT, i requires 0 <= i < SW_COUNT =>
      if Reactive(l) then pressed[i] else l.pattern[i] != 0)
  }

  /**
    One cycle of `update_lights`: the counter climbs by one until it reaches
    the cap and then stays; when the dirty flag is set every LED is written
    for the regime after the climb and the flag is cleared; otherwise no LED
    is written.
  */
  function UpdateLights(l: Lights, pressed: seq<bool>): (r: Redraw)
    requires |l.pattern| == SW_COUNT && |pressed| == SW_COUNT
    ensures Valid(l) ==> Valid(r.lights)
    ensures !r.lights.dirty && r.lights.pattern == l.pattern
    ensures l.count < REACTIVE_TIMEOUT_MAX ==> r.lights.count == l.count + 1
    ensures l.count >= REACTIVE_TIMEOUT_MAX ==> r.lights.count == l.count
    ensures l.dirty <==> r.leds.Some?
    ensures r.leds.Some? ==> r.leds.value == LedLevels(r.lights, pressed)
  {
    var count := if l.count < REACTIVE_TIMEOUT_MAX then l.count + 1 else l.count;
    var l' := l.(count := count);
    if l.dirty then Redraw(l'.(dirty := false), Some(LedLevels(l', pressed)))
    else Redraw(l', None)
  }

  /** HID report types of the transport. */
  datatype ReportType = Invalid | Input | Output | Feature

  /**
    Byte `k` as the callback reads it: bytes past the end of the buffer are
    whatever lies beyond it in memory, here `beyond`.
  */
  function ByteAt(buffer: seq<u8>, k: nat, beyond: u8): u8
  {
    if k < |buffer| then buffer[k] else beyond
  }

  /** The conditions the callback demands before taking a host pattern. */
  predicate Accepts(reportId: u8, reportType: ReportType, buffer: seq<u8>, beyond: u8)
  {
    reportId == LIGHTS_REPORT_ID && reportType == Output &&
    ByteAt(buffer, 0, beyond) == LIGHTS_REPORT_ID && |buffer| >= LIGHTS_REPORT_SIZE
  }

  /**
    The host's lighting command: when accepted, pattern byte `i` is buffer
    byte `i + 1`, the counter restarts from 0 and a redraw is requested;
    any other command changes nothing.
  */
  function SetReport(l: Lights, reportId: u8, reportType: ReportType, buffer: seq<u8>, beyond: u8): (r: Lights)
    requires |l.pattern| == SW_COUNT
    ensures |r.pattern| == SW_COUNT
    ensures Valid(l) ==> Valid(r)
    ensures Accepts(reportId, reportType, buffer, beyond) ==>
              r.count == 0 && r.dirty &&
              forall i :: 0 <= i < SW_COUNT ==> r.pattern[i] == ByteAt(buffer, i + 1, beyond)
    ensures !Accepts(reportId, reportType, buffer, beyond) ==> r == l
  {
    if Accepts(reportId, reportType, buffer, beyond) then
      Lights(0, true, seq(LIGHTS_REPORT_SIZE, i requires 0 <= i < LIGHTS_REPORT_SIZE => ByteAt(buffer, i + 1, beyond)))
    else l
  }

  /**
    The size check admits an 11-byte command, whose pattern then reads the
    last lit byte from past the end of the buffer.
  */
  lemma ElevenByteCommandOverreads(l: Lights, buffer: seq<u8>, beyond: u8)
    requires Valid(l) && |buffer| == LIGHTS_REPORT_SIZE && buffer[0] == LIGHTS_REPORT_ID
    ensures SetReport(l, 2, Output, buffer, beyond).pattern[SW_COUNT - 1] == beyond
  {
  }

  /** A command shorter than the pattern is ignored. */
  lemma ShortCommandIgnored(l: Lights, reportId: u8, reportType: ReportType, buffer: seq<u8>, beyond: u8)
    requires Valid(l) && |buffer| < LIGHTS_REPORT_SIZE
    ensures SetReport(l, reportId, reportType, buffer, beyond) == l
  {
  }

  /**
    A host write shows on the very next cycle: every LED is lit exactly when
    its pattern byte is non-zero, whatever the switches do.
  */
  lemma HostWriteShowsNextCycle(l: Lights, buffer: seq<u8>, beyond: u8, pressed: seq<bool>)
    requires Valid(l) && |pressed| == SW_COUNT
    requires Accepts(2, Output, buffer, beyond)
    ensures var r := UpdateLights(SetReport(l, 2, Output, buffer, beyond), pressed);
            r.leds.Some? && forall i :: 0 <= i < SW_COUNT ==> (r.leds.value[i] <==> ByteAt(buffer, i + 1, beyond) != 0)
  {
    var l' := SetReport(l, 2, Output, buffer, beyond);
    var r := UpdateLights(l', pressed);
    assert r.lights.count == 1;
    assert !Reactive(r.lights);
  }

  /** `n` consecutive cycles of `update_lights` with the switches held at `pressed`. */
  function Cycles(l: Lights, pressed: seq<bool>, n: nat): (r: Lights)
    requires Valid(l) && |pressed| == SW_COUNT
    ensures Valid(r)
    decreases n
  {
    if n == 0 then l else Cycles(UpdateLights(l, pressed).lights, pressed, n - 1)
  }

  /**
    After `n` cycles the counter is `count + n` capped at the timeout: from a
    host write, exactly `REACTIVE_TIMEOUT_MAX` cycles bring back the reactive
    regime.
  */
  lemma {:induction false} CyclesCount(l: Lights, pressed: seq<bool>, n: nat)
    requires Valid(l) && |pressed| == SW_COUNT
    ensures Cycles(l, pressed, n).count ==
              if l.count + n <= REACTIVE_TIMEOUT_MAX then l.count + n else REACTIVE_TIMEOUT_MAX
    ensures n > 0 ==> !Cycles(l, pressed, n).dirty
    decreases n
  {
    if n > 0 {
      CyclesCount(UpdateLights(l, pressed).lights, pressed, n - 1);
    }
  }

  /** From a host write, the reactive regime returns after exactly the timeout and not before. */
  lemma TimeoutReturnsToReactive(l: Lights, pressed: seq<bool>, n: nat)
    requires Valid(l) && |pressed| == SW_COUNT && l.count == 0
    ensures Reactive(Cycles(l, pressed, n)) <==> n >= REACTIVE_TIMEOUT_MAX
  {
    CyclesCount(l, pressed, n);
  }
}

=== FILE: reports.dfy ===
/**
  Payloads the game controller hands to the USB transport: the joystick
  button field, the N-key-rollover keyboard bitmap and the relative mouse
  report.
*/
module Reports {
  import opened Words
  import opened Board

  // ---------------------------------------------------------------------------
  // Joystick buttons
  // ---------------------------------------------------------------------------

  /**
    The joystick loop folds the switches from the last one down to switch `i`
    into a `uint16_t`, shifting left and or-ing in each switch, so switch `i`
    lands in bit 0 of the result. Each step is truncated to 16 bits as the
    assignment to `uint16_t` does.
  */
  function PackFrom(sw: seq<bool>, i: nat): (mask: nat)
    requires i <= |sw| <= 16
    decreases |sw| - i
    ensures mask < Pow2(|sw| - i)
    ensures forall k :: 0 <= k < |sw| - i ==> (Bit(mask, k) <==> sw[i + k])
  {
    if i == |sw| then 0
    else
      var rest := PackFrom(sw, i + 1);
      var mask := (rest * 2 + (if sw[i] then 1 else 0)) % U16_LIMIT;
      assert Pow2(|sw| - i) <= U16_LIMIT by { Pow2Monotone(|sw| - i, 16); Pow2Sixteen(); }
      assert mask == rest * 2 + (if sw[i] then 1 else 0);
      assert mask / 2 == rest;
      mask
  }

  /** The 16-bit `buttons` field of the joystick report built from the switches. */
  function PackButtons(sw: seq<bool>): (buttons: u16)
    requires |sw| == SW_COUNT
    ensures forall k :: 0 <= k < SW_COUNT ==> (Bit(buttons, k) <==> sw[k])
    ensures forall k :: SW_COUNT <= k < 16 ==> !Bit(buttons, k)
  {
    var mask := PackFrom(sw, 0);
    Pow2Sixteen();
    forall k | SW_COUNT <= k < 16
      ensures !Bit(mask, k)
    {
      BitsAboveWidth(mask, SW_COUNT, k);
    }
    mask
  }

  lemma Pow2Sixteen()
    ensures Pow2(SW_COUNT) == 2048 && Pow2(16) == U16_LIMIT
  {
    assert Pow2(2) == 4;
    assert Pow2(4) == 16;
    assert Pow2(6) == 64;
    assert Pow2(8) == 256;
    assert Pow2(10) == 1024;
    assert Pow2(12) == 4096;
    assert Pow2(14) == 16384;
  }

  lemma {:induction false} Pow2Monotone(m: nat, n: nat)
    requires m <= n
    ensures Pow2(m) <= Pow2(n)
  {
    if m < n {
      Pow2Monotone(m, n - 1);
    }
  }

  // ---------------------------------------------------------------------------
  // N-key-rollover keyboard bitmap
  // ---------------------------------------------------------------------------

  /** Size of the keyboard bitmap in bytes. */
  const NKRO_BYTES: nat := 32

  /** A bit of the keyboard bitmap: byte `index`, bit `bit` of that byte. */
  datatype Slot = Slot(index: nat, bit: nat)

  predicate ValidSlot(s: Slot)
  {
    s.index < NKRO_BYTES && s.bit < 8
  }

  /**
    Where a keycode goes in the bitmap: keys 240 to 247 share byte 0, every
    other key `k` goes to byte `k / 8 + 1`, bit `k % 8`, provided that byte
    is one of 1 to 31; a key with no place sets nothing.
  */
  function KeySlot(key: u8): (s: Option<Slot>)
    ensures s.Some? ==> ValidSlot(s.value) && s.value.bit == key % 8
    ensures 240 <= key <= 247 ==> s == Some(Slot(0, key % 8))
    ensures key < 240 ==> s == Some(Slot(key / 8 + 1, key % 8))
    ensures key > 247 ==> s.None?
  {
    var bit := key % 8;
    var index := key / 8 + 1;
    if 240 <= key <= 247 then Some(Slot(0, bit))
    else if index > 0 && index <= 31 then Some(Slot(index, bit))
    else None
  }

  /** The keycode a bitmap bit stands for; the inverse of `KeySlot`. */
  function SlotKey(s: Slot): (key: nat)
  {
    if s.index == 0 then 240 + s.bit else (s.index - 1) * 8 + s.bit
  }

  /** Distinct keys never share a bit: `SlotKey` recovers the key from its bit. */
  lemma KeySlotRoundTrip(key: u8)
    requires KeySlot(key).Some?
    ensures SlotKey(KeySlot(key).value) == key
  {
  }

  /** Every bit of bytes 0 to 30 is the bit of exactly one key; byte 31 is never used. */
  lemma SlotKeyRoundTrip(s: Slot)
    requires ValidSlot(s)
    ensures s.index < 31 ==> SlotKey(s) < 256 && KeySlot(SlotKey(s) as u8) == Some(s)
    ensures s.index == 31 ==> forall key: u8 :: KeySlot(key) != Some(s)
  {
  }

  predicate BitOf(b: bv8, k: nat)
    requires k < 8
  {
    (b >> k) & 1 == 1
  }

  /** `b |= 1 << k`. */
  function SetBit(b: bv8, k: nat): (r: bv8)
    requires k < 8
    ensures forall j :: 0 <= j < 8 ==> (BitOf(r, j) <==> BitOf(b, j) || j == k)
  {
    b | (1 << k)
  }

  /** Some switch among the first `n` is pressed and its key owns bit `s`. */
  ghost predicate Lit(sw: seq<bool>, keys: seq<u8>, n: nat, s: Slot)
    requires n <= |sw| == |keys|
  {
    exists i :: 0 <= i < n && sw[i] && KeySlot(keys[i]) == Some(s)
  }

  /** The all-zero bitmap the keyboard report starts from. */
  function EmptyBitmap(): (m: seq<bv8>)
    ensures |m| == NKRO_BYTES
    ensures forall b :: 0 <= b < NKRO_BYTES ==> m[b] == 0
  {
    seq(NKRO_BYTES, _ => 0)
  }

  /** The bitmap after the loop has looked at the first `n` switches. */
  function NkroFrom(sw: seq<bool>, keys: seq<u8>, n: nat): (m: seq<bv8>)
    requires n <= |sw| == |keys|
    ensures |m| == NKRO_BYTES
    ensures forall b, k :: 0 <= b < NKRO_BYTES && 0 <= k < 8 ==>
              (BitOf(m[b], k) <==> Lit(sw, keys, n, Slot(b, k)))
  {
    if n == 0 then
      var m := EmptyBitmap();
      assert forall b, k :: 0 <= b < NKRO_BYTES && 0 <= k < 8 ==> !BitOf(m[b], k);
      m
    else
      var m := NkroFrom(sw, keys, n - 1);
      var slot := KeySlot(keys[n - 1]);
      if sw[n - 1] && slot.Some? then
        var s := slot.value;
        var m' := m[s.index := SetBit(m[s.index], s.bit)];
        assert forall b, k :: 0 <= b < NKRO_BYTES && 0 <= k < 8 ==>
                 (BitOf(m'[b], k) <==> BitOf(m[b], k) || Slot(b, k) == s);
        m'
      else
        m
  }

  /**
    The keyboard report: bit `k % 8` of the key's byte is set exactly when a
    pressed switch carries key `k`; released switches, and keys with no
    place in the bitmap, set nothing.
  */
  function Nkro(sw: seq<bool>, keys: seq<u8>): (m: seq<bv8>)
    requires |sw| == |keys|
    ensures |m| == NKRO_BYTES
    ensures forall b, k :: 0 <= b < NKRO_BYTES && 0 <= k < 8 ==>
              (BitOf(m[b], k) <==> exists i :: 0 <= i < |sw| && sw[i] && KeySlot(keys[i]) == Some(Slot(b, k)))
  {
    NkroFrom(sw, keys, |sw|)
  }

  /** Switch `i` is the only one pressed. */
  predicate OnlyPressed(sw: seq<bool>, i: nat)
  {
    forall j :: 0 <= j < |sw| ==> (sw[j] <==> j == i)
  }

  /** Pressing switch `i` alone sets exactly the bit of its key. */
  lemma NkroSingleKey(sw: seq<bool>, keys: seq<u8>, i: nat)
    requires |sw| == |keys| == SW_COUNT && i < SW_COUNT && keys[i] < 240 && OnlyPressed(sw, i)
    ensures var m := Nkro(sw, keys);
            forall b, k :: 0 <= b < NKRO_BYTES && 0 <= k < 8 ==>
              (BitOf(m[b], k) <==> b == keys[i] / 8 + 1 && k == keys[i] % 8)
  {
    forall b, k | 0 <= b < NKRO_BYTES && 0 <= k < 8
      ensures BitOf(Nkro(sw, keys)[b], k) <==> b == keys[i] / 8 + 1 && k == keys[i] % 8
    {
      if BitOf(Nkro(sw, keys)[b], k) {
        LitBitIsOwn(sw, keys, i, b, k);
      }
    }
  }

  lemma LitBitIsOwn(sw: seq<bool>, keys: seq<u8>, i: nat, b: nat, k: nat)
    requires |sw| == |keys| == SW_COUNT && i < SW_COUNT && OnlyPressed(sw, i)
    requires b < NKRO_BYTES && k < 8 && BitOf(Nkro(sw, keys)[b], k)
    ensures KeySlot(keys[i]) == Some(Slot(b, k))
  {
    var j :| 0 <= j < |sw| && sw[j] && KeySlot(keys[j]) == Some(Slot(b, k));
    assert j == i;
  }

  /** With every switch released the bitmap is all zero: releasing the last key clears the report. */
  lemma NkroReleasedEmpty(keys: seq<u8>)
    requires |keys| == SW_COUNT
    ensures var m := Nkro(seq(SW_COUNT, j => false), keys);
            forall b :: 0 <= b < NKRO_BYTES ==> m[b] == 0
  {
    var none := Nkro(seq(SW_COUNT, j => false), keys);
    forall b | 0 <= b < NKRO_BYTES
      ensures none[b] == 0
    {
      assert forall k :: 0 <= k < 8 ==> !BitOf(none[b], k);
      NoBitsIsZero(none[b]);
    }
  }

  lemma NoBitsIsZero(b: bv8)
    requires forall k :: 0 <= k < 8 ==> !BitOf(b, k)
    ensures b == 0
  {
    assert !BitOf(b, 0) && !BitOf(b, 1) && !BitOf(b, 2) && !BitOf(b, 3);
    assert !BitOf(b, 4) && !BitOf(b, 5) && !BitOf(b, 6) && !BitOf(b, 7);
  }

  // ---------------------------------------------------------------------------
  // Relative mouse report
  // ---------------------------------------------------------------------------

  /** The mouse report: button byte, two signed 8-bit motions, wheel and pan. */
  datatype MouseReport = MouseReport(buttons: u8, x: int, y: int, wheel: int, pan: int)

  /**
    A mouse report carrying motions `dx` and `dy`; each motion is passed
    where the report holds a signed byte, so it is reduced to 8 bits.
  */
  function Mouse(dx: int, dy: int): (r: MouseReport)
    ensures r.buttons == 0 && r.wheel == 0 && r.pan == 0
    ensures -128 <= r.x < 128 && (r.x - dx) % U8_LIMIT == 0
    ensures -128 <= r.y < 128 && (r.y - dy) % U8_LIMIT == 0
    ensures -128 <= dx < 128 && -128 <= dy < 128 ==> r.x == dx && r.y == dy
  {
    MouseReport(0, ToInt8(dx), ToInt8(dy), 0, 0)
  }
}

=== FILE: sdvx.dfy ===
/**
  The older keyboard-and-mouse firmware: two encoders decoded in software
  from pin-change interrupts with a 16-entry transition table, a smoothing
  ring buffer per encoder, and a loop that mirrors the switches onto LEDs
  and keyboard reports and sends the accumulated motion as a mouse report.

  The interrupt and the loop share state; here each interrupt is one call
  of `Callback` and each loop iteration one call of `KeyMode`, in whatever
  order they happen.
*/
module Sdvx {
  import opened Words
  import Reports

  /** Slots of each smoothing buffer. */
  const SMOOTH_SIZE: nat := 10
  /** Mouse motion per encoder step. */
  const ENC_SENS: nat := 10
  /** Smoothing is compiled out: the mouse report uses the raw step sums. */
  const SMOOTH_ENABLED: bool := false
  /** Number of switches and LEDs. */
  const SW_COUNT: nat := 7
  /** Pins of the left encoder; any other interrupting pin is taken for the right encoder. */
  const L_ENC_GPIO: seq<nat> := [0, 1]
  /**
    Keys of the switches, as HID usage IDs of the Keyboard/Keypad page
    (section 10 of the USB HID Usage Tables): Return, A, S, D, F, Z, X.
  */
  const SW_KEYCODE: seq<u8> := [0x28, 0x04, 0x16, 0x07, 0x09, 0x1D, 0x1B]

  // ---------------------------------------------------------------------------
  // Quadrature decoding
  // ---------------------------------------------------------------------------

  /**
    Position of a pin pair (pin A in bit 0, pin B in bit 1) along the
    quadrature cycle 00, B, AB, A.
  */
  function Phase(pins: nat): (p: nat)
    requires pins < 4
    ensures p < 4
  {
    [0, 3, 1, 2][pins]
  }

  /**
    The transition table, indexed by `s` with the previous pins in bits 0
    and 1 and the new pins in bits 2 and 3. The step is congruent to the
    phase difference modulo 4: zero exactly when the pins did not change,
    one step either way for a single pin change, and a guessed two steps
    when both pins changed.
  */
  function Transition(s: nat): (step: int)
    requires s < 16
    ensures -2 <= step <= 2
    ensures (step - (Phase(s / 4) - Phase(s % 4))) % 4 == 0
    ensures step == 0 <==> s / 4 == s % 4
    ensures (step == 2 || step == -2) <==> s / 4 == 3 - s % 4
  {
    if s in {0, 5, 10, 15} then 0
    else if s in {1, 7, 8, 14} then 1
    else if s in {2, 4, 11, 13} then -1
    else if s in {3, 12} then 2
    else -2
  }

  /** The table entry by entry; the last class is the `default` branch. */
  lemma TransitionTable(s: nat)
    requires s < 16
    ensures Transition(s) == 0 <==> s in {0, 5, 10, 15}
    ensures Transition(s) == 1 <==> s in {1, 7, 8, 14}
    ensures Transition(s) == -1 <==> s in {2, 4, 11, 13}
    ensures Transition(s) == 2 <==> s in {3, 12}
    ensures Transition(s) == -2 <==> s in {6, 9}
  {
  }

  /** One encoder: `l_enc`, `l_state`, `l_smooth` and `l_smooth_idx` (or the right ones). */
  datatype Encoder = Encoder(count: int, state: nat, smooth: seq<int>, idx: nat)

  predicate Buffered(e: Encoder)
  {
    |e.smooth| == SMOOTH_SIZE && e.idx < SMOOTH_SIZE
  }

  /** Every buffer entry is a table step, so lies between -2 and 2. */
  predicate Steps(e: Encoder)
    requires Buffered(e)
  {
    forall k :: 0 <= k < SMOOTH_SIZE ==> -2 <= e.smooth[k] <= 2
  }

  /** `s = (state & 3) | a << 2 | b << 3`. */
  function Index(state: nat, a: bool, b: bool): (s: nat)
    ensures s < 16 && s % 4 == state % 4
    ensures s / 4 == (if a then 1 else 0) + (if b then 2 else 0)
  {
    state % 4 + (if a then 4 else 0) + (if b then 8 else 0)
  }

  /**
    One interrupt for one encoder with its pins at `a`, `b`: the step from
    the table is added to the count and stored at the buffer index, the
    index advances modulo `SMOOTH_SIZE`, and the state becomes the pins just
    read, so it lies in 0 to 3.
  */
  function Decode(e: Encoder, a: bool, b: bool): (r: Encoder)
    requires Buffered(e)
    ensures Buffered(r) && r.state < 4
    ensures r.state == (if a then 1 else 0) + (if b then 2 else 0)
    ensures r.smooth == e.smooth[e.idx := Transition(Index(e.state, a, b))]
    ensures r.count == e.count + r.smooth[e.idx]
    ensures r.idx == (e.idx + 1) % SMOOTH_SIZE
    ensures Steps(e) ==> Steps(r)
  {
    var s := Index(e.state, a, b);
    var position := Transition(s);
    Encoder(e.count + position, s / 4, e.smooth[e.idx := position], (e.idx + 1) % SMOOTH_SIZE)
  }

  /** The state shared by the interrupt and the loop. */
  datatype Sdvx = Sdvx(left: Encoder, right: Encoder, needUpdateMouse: bool)

  predicate Valid(st: Sdvx)
  {
    Buffered(st.left) && Buffered(st.right)
  }

  /** Start-up: counts and buffers zero, states from pin A of each encoder. */
  function Init(leftA: bool, rightA: bool): (st: Sdvx)
    ensures Valid(st) && !st.needUpdateMouse
    ensures st.left.count == 0 && st.right.count == 0
    ensures Sum(st.left.smooth) == 0 && Sum(st.right.smooth) == 0
    ensures Steps(st.left) && Steps(st.right)
    ensures forall k :: 0 <= k < SMOOTH_SIZE ==> st.left.smooth[k] == 0 && st.right.smooth[k] == 0
    ensures st.left.idx == 0 && st.right.idx == 0
    ensures st.left.state == (if leftA then 1 else 0) && st.right.state == (if rightA then 1 else 0)
  {
    var zeros := seq(SMOOTH_SIZE, _ => 0);
    SumZeros(SMOOTH_SIZE);
    Sdvx(Encoder(0, if leftA then 1 else 0, zeros, 0), Encoder(0, if rightA then 1 else 0, zeros, 0), false)
  }

  /**
    `gpio_enc_callback`: an interrupt on pin 0 or 1 decodes the left encoder
    from pins 0 and 1; an interrupt on any other pin decodes the right
    encoder from pins 2 and 3. Either way a mouse update is requested.
  */
  function Callback(st: Sdvx, gpio: nat, pins: seq<bool>): (r: Sdvx)
    requires Valid(st) && |pins| == 4
    ensures Valid(r) && r.needUpdateMouse
    ensures gpio in L_ENC_GPIO ==> r.left == Decode(st.left, pins[0], pins[1]) && r.right == st.right
    ensures gpio !in L_ENC_GPIO ==> r.right == Decode(st.right, pins[2], pins[3]) && r.left == st.left
  {
    if gpio == L_ENC_GPIO[0] || gpio == L_ENC_GPIO[1] then
      st.(left := Decode(st.left, pins[0], pins[1]), needUpdateMouse := true)
    else
      st.(right := Decode(st.right, pins[2], pins[3]), needUpdateMouse := true)
  }

  /** The right branch does to the right encoder exactly what the left branch does to the left one. */
  lemma LeftRightSymmetric(st: Sdvx, a: bool, b: bool)
    requires Valid(st) && st.left == st.right
    ensures Callback(st, 2, [a, b, a, b]).right == Callback(st, 0, [a, b, a, b]).left
  {
  }

  // ---------------------------------------------------------------------------
  // Smoothing
  // ---------------------------------------------------------------------------

  function Sum(s: seq<int>): int
  {
    if |s| == 0 then 0 else Sum(s[..|s| - 1]) + s[|s| - 1]
  }

  /** `enc_smooth_dir`: the sum of all `SMOOTH_SIZE` entries of a buffer. */
  method SmoothDir(smooth: seq<int>) returns (dirSum: int)
    requires |smooth| == SMOOTH_SIZE
    ensures dirSum == Sum(smooth)
  {
    dirSum := 0;
    for i := 0 to SMOOTH_SIZE
      invariant dirSum == Sum(smooth[..i])
    {
      assert smooth[..i + 1][..i] == smooth[..i];
      dirSum := dirSum + smooth[i];
    }
    assert smooth[..SMOOTH_SIZE] == smooth;
  }

  lemma {:induction false} SumZeros(n: nat)
    ensures Sum(seq(n, _ => 0)) == 0
  {
    if n > 0 {
      assert seq(n, _ => 0)[..n - 1] == seq(n - 1, _ => 0);
      SumZeros(n - 1);
    }
  }

  /** Overwriting one entry changes the sum by the difference. */
  lemma {:induction false} SumUpdate(s: seq<int>, i: nat, v: int)
    requires i < |s|
    ensures Sum(s[i := v]) == Sum(s) - s[i] + v
  {
    var t := s[i := v];
    if i < |s| - 1 {
      assert t[..|t| - 1] == s[..|s| - 1][i := v];
      SumUpdate(s[..|s| - 1], i, v);
    } else {
      assert t[..|t| - 1] == s[..|s| - 1];
    }
  }

  /** A buffer of table steps sums to at most two steps per slot either way. */
  lemma {:induction false} SumBounds(s: seq<int>)
    requires forall k :: 0 <= k < |s| ==> -2 <= s[k] <= 2
    ensures -2 * |s| <= Sum(s) <= 2 * |s|
  {
    if |s| > 0 {
      SumBounds(s[..|s| - 1]);
    }
  }

  /**
    Smoothing a buffer of table steps gives at most 20 either way, so the
    smoothed motion of one report is bounded whatever the interrupts did.
  */
  lemma SmoothDirBounded(e: Encoder)
    requires Buffered(e) && Steps(e)
    ensures -2 * SMOOTH_SIZE <= Sum(e.smooth) <= 2 * SMOOTH_SIZE
  {
    SumBounds(e.smooth);
  }

  /** The buffer entry `k` slots ahead of the index, wrapping around. */
  function Ahead(e: Encoder, k: nat): int
    requires Buffered(e)
  {
    e.smooth[(e.idx + k) % SMOOTH_SIZE]
  }

  /** The next `m` slots from the index on still hold zero. */
  predicate Fresh(e: Encoder, m: nat)
    requires Buffered(e)
  {
    forall k: nat :: k < m ==> Ahead(e, k) == 0
  }

  /**
    While unwritten slots remain ahead of the index, a decode keeps the
    buffer's sum equal to the count and leaves one fewer unwritten slot.
  */
  lemma DecodeKeepsSum(e: Encoder, a: bool, b: bool, m: nat)
    requires Buffered(e) && 1 <= m <= SMOOTH_SIZE && Fresh(e, m) && Sum(e.smooth) == e.count
    ensures var r := Decode(e, a, b);
            Sum(r.smooth) == r.count && Fresh(r, m - 1)
  {
    var r := Decode(e, a, b);
    assert e.smooth[e.idx] == 0 by { assert Ahead(e, 0) == 0; }
    SumUpdate(e.smooth, e.idx, r.smooth[e.idx]);
    forall k: nat | k < m - 1
      ensures Ahead(r, k) == 0
    {
      assert (r.idx + k) % SMOOTH_SIZE == (e.idx + (k + 1)) % SMOOTH_SIZE;
      assert Ahead(e, k + 1) == 0;
      assert (e.idx + (k + 1)) % SMOOTH_SIZE != e.idx;
    }
  }

  /**
    An encoder after a series of interrupts, each with its pin pair: the
    index has advanced once per interrupt, the state is the last pin pair,
    and the buffer still holds table steps only.
  */
  function DecodeAll(e: Encoder, events: seq<(bool, bool)>): (r: Encoder)
    requires Buffered(e)
    ensures Buffered(r)
    ensures r.idx == (e.idx + |events|) % SMOOTH_SIZE
    ensures |events| > 0 ==>
              r.state == (if events[|events| - 1].0 then 1 else 0) + (if events[|events| - 1].1 then 2 else 0)
    ensures Steps(e) ==> Steps(r)
    decreases |events|
  {
    if |events| == 0 then e
    else
      var first := Decode(e, events[0].0, events[0].1);
      var r := DecodeAll(first, events[1..]);
      assert (first.idx + (|events| - 1)) % SMOOTH_SIZE == (e.idx + |events|) % SMOOTH_SIZE;
      r
  }

  /**
    From a cleared encoder, up to `SMOOTH_SIZE` interrupts leave the
    smoothed direction equal to the count: with smoothing switched on, the
    mouse report would carry the same motion.
  */
  lemma {:induction false} SmoothTracksCount(e: Encoder, events: seq<(bool, bool)>)
    requires Buffered(e) && e.count == 0 && forall k :: 0 <= k < SMOOTH_SIZE ==> e.smooth[k] == 0
    requires |events| <= SMOOTH_SIZE
    ensures Sum(DecodeAll(e, events).smooth) == DecodeAll(e, events).count
  {
    assert e.smooth == seq(SMOOTH_SIZE, _ => 0);
    SumZeros(SMOOTH_SIZE);
    TracksFrom(e, events, SMOOTH_SIZE);
  }

  lemma {:induction false} TracksFrom(e: Encoder, events: seq<(bool, bool)>, m: nat)
    requires Buffered(e) && |events| <= m <= SMOOTH_SIZE && Fresh(e, m) && Sum(e.smooth) == e.count
    ensures Sum(DecodeAll(e, events).smooth) == DecodeAll(e, events).count
    decreases |events|
  {
    if |events| > 0 {
      DecodeKeepsSum(e, events[0].0, events[0].1, m);
      TracksFrom(Decode(e, events[0].0, events[0].1), events[1..], m - 1);
    }
  }

  // ---------------------------------------------------------------------------
  // The keyboard loop
  // ---------------------------------------------------------------------------

  /** A boot-protocol keyboard report: modifier byte and six key slots. */
  datatype KeyReport = KeyReport(modifier: u8, keycodes: seq<u8>)

  /** The report for one pressed switch: its key in the first slot, the rest zero. */
  function PressReport(key: u8): (r: KeyReport)
    ensures r.modifier == 0 && |r.keycodes| == 6 && r.keycodes[0] == key
    ensures forall k :: 1 <= k < 6 ==> r.keycodes[k] == 0
  {
    KeyReport(0, [key, 0, 0, 0, 0, 0])
  }

  /** The report sent when nothing is pressed. */
  const EMPTY_REPORT: KeyReport := KeyReport(0, [0, 0, 0, 0, 0, 0])

  /** Every switch has a key: no keycode is zero. */
  lemma KeycodesNonZero(j: nat)
    requires j < SW_COUNT
    ensures SW_KEYCODE[j] != 0
  {
  }

  /** The number of pressed switches from `i` on, zero exactly when none is; a low line is pressed. */
  function LowCount(levels: seq<bool>, i: nat): (n: nat)
    requires |levels| == SW_COUNT && i <= SW_COUNT
    decreases SW_COUNT - i
    ensures n <= SW_COUNT - i
    ensures n == 0 <==> forall j :: i <= j < SW_COUNT ==> levels[j]
  {
    if i == SW_COUNT then 0 else (if levels[i] then 0 else 1) + LowCount(levels, i + 1)
  }

  /**
    The pressed switches from `i` on, in increasing order: as many as are
    pressed, each listed switch pressed, none listed twice.
  */
  function LowIndices(levels: seq<bool>, i: nat): (js: seq<nat>)
    requires |levels| == SW_COUNT && i <= SW_COUNT
    decreases SW_COUNT - i
    ensures |js| == LowCount(levels, i)
    ensures forall k :: 0 <= k < |js| ==> i <= js[k] < SW_COUNT && !levels[js[k]]
    ensures forall k, l :: 0 <= k < l < |js| ==> js[k] < js[l]
  {
    if i == SW_COUNT then []
    else
      var rest := LowIndices(levels, i + 1);
      if !levels[i] then [i] + rest else rest
  }

  /** Every pressed switch from `i` on is listed. */
  lemma {:induction false} LowIndicesComplete(levels: seq<bool>, i: nat, j: nat)
    requires |levels| == SW_COUNT && i <= j < SW_COUNT && !levels[j]
    ensures j in LowIndices(levels, i)
    decreases SW_COUNT - i
  {
    if i < j {
      LowIndicesComplete(levels, i + 1, j);
    }
  }

  /**
    The keys of the pressed switches from `i` on: one per pressed switch,
    in switch order, none zero.
  */
  function PressedKeys(levels: seq<bool>, i: nat): (keys: seq<u8>)
    requires |levels| == SW_COUNT && i <= SW_COUNT
    decreases SW_COUNT - i
    ensures |keys| == LowCount(levels, i)
    ensures forall k :: 0 <= k < |keys| ==> keys[k] == SW_KEYCODE[LowIndices(levels, i)[k]] && keys[k] != 0
  {
    if i == SW_COUNT then []
    else
      var rest := PressedKeys(levels, i + 1);
      if !levels[i] then
        KeycodesNonZero(i);
        [SW_KEYCODE[i]] + rest
      else rest
  }

  /** No pressed switch is missed: its key is among the pressed keys. */
  lemma PressedKeysComplete(levels: seq<bool>, i: nat, j: nat)
    requires |levels| == SW_COUNT && i <= j < SW_COUNT && !levels[j]
    ensures exists k :: 0 <= k < |PressedKeys(levels, i)| && PressedKeys(levels, i)[k] == SW_KEYCODE[j]
  {
    LowIndicesComplete(levels, i, j);
    var js := LowIndices(levels, i);
    var k :| 0 <= k < |js| && js[k] == j;
    assert PressedKeys(levels, i)[k] == SW_KEYCODE[j];
  }

  /**
    The keyboard reports of one loop: one per pressed switch, in switch
    order, and the empty report exactly when nothing is pressed.
  */
  function Keyboard(levels: seq<bool>): (r: seq<KeyReport>)
    requires |levels| == SW_COUNT
    ensures |PressedKeys(levels, 0)| == 0 ==> r == [EMPTY_REPORT]
    ensures |PressedKeys(levels, 0)| > 0 ==>
              |r| == |PressedKeys(levels, 0)| &&
              forall k :: 0 <= k < |r| ==> r[k] == PressReport(PressedKeys(levels, 0)[k])
  {
    var keys := PressedKeys(levels, 0);
    if |keys| == 0 then [EMPTY_REPORT]
    else seq(|keys|, k requires 0 <= k < |keys| => PressReport(keys[k]))
  }

  /** The empty report goes out exactly when no switch is pressed. */
  lemma EmptyReportIffReleased(levels: seq<bool>)
    requires |levels| == SW_COUNT
    ensures Keyboard(levels) == [EMPTY_REPORT] <==> forall i :: 0 <= i < SW_COUNT ==> levels[i]
  {
    var keys := PressedKeys(levels, 0);
    if |keys| > 0 {
      assert Keyboard(levels)[0].keycodes[0] == keys[0] != 0;
    }
  }

  /** Every pressed switch gets a report carrying its key. */
  lemma KeyboardReportsEveryPress(levels: seq<bool>, i: nat)
    requires |levels| == SW_COUNT && i < SW_COUNT && !levels[i]
    ensures exists k :: 0 <= k < |Keyboard(levels)| && Keyboard(levels)[k] == PressReport(SW_KEYCODE[i])
  {
    var keys := PressedKeys(levels, 0);
    PressedKeysComplete(levels, 0, i);
    var k :| 0 <= k < |keys| && keys[k] == SW_KEYCODE[i];
    assert Keyboard(levels)[k] == PressReport(SW_KEYCODE[i]);
  }

  /** The LED levels: LED `i` is lit exactly when switch `i` is pressed. */
  function Mirror(levels: seq<bool>): (leds: seq<bool>)
    requires |levels| == SW_COUNT
    ensures |leds| == SW_COUNT
    ensures forall i :: 0 <= i < SW_COUNT ==> (leds[i] <==> !levels[i])
  {
    seq(SW_COUNT, i requires 0 <= i < SW_COUNT => !levels[i])
  }

  /** Motion of one encoder for the mouse report. */
  function Motion(e: Encoder): (m: int)
    requires Buffered(e)
    ensures m == e.count * ENC_SENS
  {
    (if SMOOTH_ENABLED then Sum(e.smooth) else e.count) * ENC_SENS
  }

  /** Counts and buffers cleared after a mouse report; the buffer index and pin state are kept. */
  function Cleared(e: Encoder): (r: Encoder)
    requires Buffered(e)
    ensures Buffered(r) && r.count == 0 && r.idx == e.idx && r.state == e.state
    ensures Fresh(r, SMOOTH_SIZE) && Sum(r.smooth) == 0 && Steps(r)
  {
    SumZeros(SMOOTH_SIZE);
    Encoder(0, e.state, seq(SMOOTH_SIZE, _ => 0), e.idx)
  }

  /** The loop's output: keyboard reports in order, LED levels, and the mouse report, if any. */
  datatype LoopOut = LoopOut(state: Sdvx, keyboard: seq<KeyReport>, leds: Option<seq<bool>>, mouse: Option<Reports.MouseReport>)

  /**
    `key_mode`: with the transport ready, the LEDs mirror the switches and
    the keyboard reports are sent; a requested mouse update sends both
    encoders' motion and clears their counts and buffers, but the request
    itself stays set. With the transport busy nothing happens.
  */
  function KeyMode(st: Sdvx, levels: seq<bool>, ready: bool): (r: LoopOut)
    requires Valid(st) && |levels| == SW_COUNT
    ensures Valid(r.state)
    ensures !ready ==> r == LoopOut(st, [], None, None)
    ensures ready ==> r.leds == Some(Mirror(levels)) && r.keyboard == Keyboard(levels)
    ensures r.mouse.Some? <==> ready && st.needUpdateMouse
    ensures r.mouse.Some? ==>
              && r.mouse.value == Reports.Mouse(st.left.count * ENC_SENS, st.right.count * ENC_SENS)
              && r.state.left == Cleared(st.left) && r.state.right == Cleared(st.right)
    ensures r.mouse.None? ==> r.state == st
    ensures r.state.needUpdateMouse == st.needUpdateMouse
  {
    if !ready then LoopOut(st, [], None, None)
    else if st.needUpdateMouse then
      var mouse := Reports.Mouse(Motion(st.left), Motion(st.right));
      LoopOut(st.(left := Cleared(st.left), right := Cleared(st.right)), Keyboard(levels), Some(Mirror(levels)), Some(mouse))
    else
      LoopOut(st, Keyboard(levels), Some(Mirror(levels)), None)
  }

  /**
    Once an interrupt has requested a mouse update, every later ready loop
    sends a mouse report, even with no motion since the last one.
  */
  lemma MouseReportRepeats(st: Sdvx, gpio: nat, pins: seq<bool>, levels: seq<bool>)
    requires Valid(st) && |pins| == 4 && |levels| == SW_COUNT
    ensures var once := KeyMode(Callback(st, gpio, pins), levels, true);
            var twice := KeyMode(once.state, levels, true);
            once.mouse.Some? && twice.mouse == Some(Reports.Mouse(0, 0))
  {
  }
}

=== FILE: switches.dfy ===
/**
  Switch tracking of the game controller: active-low lines become the
  `pressed` vector and the latched `changed` flag; the report functions later
  move the `prev` snapshot forward.
*/
module Switches {
  import opened Board

  /** `sw_val`, `prev_sw_val` and `sw_changed`. */
  datatype Switches = Switches(pressed: seq<bool>, prev: seq<bool>, changed: bool)

  predicate Valid(s: Switches)
  {
    |s.pressed| == SW_COUNT && |s.prev| == SW_COUNT
  }

  /** All switches released, nothing pending: the state `init` leaves. */
  function Released(): (s: Switches)
    ensures Valid(s) && !s.changed
    ensures forall i :: 0 <= i < SW_COUNT ==> !s.pressed[i] && !s.prev[i]
  {
    Switches(seq(SW_COUNT, _ => false), seq(SW_COUNT, _ => false), false)
  }

  /** Some switch from `i` on reads differently from its snapshot. */
  predicate DiffersFrom(pressed: seq<bool>, prev: seq<bool>, i: nat)
    requires |pressed| == |prev|
  {
    exists k :: i <= k < |pressed| && pressed[k] != prev[k]
  }

  /** Some switch reads differently from its snapshot. */
  predicate Differs(pressed: seq<bool>, prev: seq<bool>)
    requires |pressed| == |prev|
  {
    DiffersFrom(pressed, prev, 0)
  }

  /** The polling loop from switch `i` on; a line that reads high is released. */
  function PollFrom(s: Switches, levels: seq<bool>, i: nat): (r: Switches)
    requires Valid(s) && |levels| == SW_COUNT && i <= SW_COUNT
    decreases SW_COUNT - i
    ensures Valid(r) && r.prev == s.prev
    ensures forall k :: 0 <= k < i ==> r.pressed[k] == s.pressed[k]
    ensures forall k :: i <= k < SW_COUNT ==> r.pressed[k] == !levels[k]
    ensures r.changed <==> s.changed || DiffersFrom(r.pressed, s.prev, i)
  {
    if i == SW_COUNT then s
    else
      var pressed := !levels[i];
      var changed := if !s.changed && pressed != s.prev[i] then true else s.changed;
      PollFrom(Switches(s.pressed[i := pressed], s.prev, changed), levels, i + 1)
  }

  /**
    One poll: each switch is pressed exactly when its line is low, and the
    flag is raised when any switch differs from its snapshot. A raised flag
    is never lowered here, and the snapshot is left alone.
  */
  function Poll(s: Switches, levels: seq<bool>): (r: Switches)
    requires Valid(s) && |levels| == SW_COUNT
    ensures Valid(r) && r.prev == s.prev
    ensures forall k :: 0 <= k < SW_COUNT ==> r.pressed[k] == !levels[k]
    ensures r.changed <==> s.changed || Differs(r.pressed, s.prev)
  {
    PollFrom(s, levels, 0)
  }

  /** Joystick mode consumes the change: every snapshot takes the current state. */
  function JoyCommit(s: Switches): (r: Switches)
    requires Valid(s)
    ensures Valid(r) && !r.changed && r.pressed == s.pressed
    ensures !Differs(r.pressed, r.prev)
  {
    Switches(s.pressed, s.pressed, false)
  }

  /**
    Keyboard mode consumes the change but moves the snapshot forward only for
    pressed switches: a released switch keeps whatever snapshot it had.
  */
  function KeyCommit(s: Switches): (r: Switches)
    requires Valid(s)
    ensures Valid(r) && !r.changed && r.pressed == s.pressed
    ensures forall i :: 0 <= i < SW_COUNT ==> r.prev[i] == (s.pressed[i] || s.prev[i])
  {
    Switches(s.pressed, seq(SW_COUNT, i requires 0 <= i < SW_COUNT => if s.pressed[i] then s.pressed[i] else s.prev[i]), false)
  }

  /** After the joystick commit, polling the same lines again reports no change. */
  lemma JoyCommitSettles(s: Switches, levels: seq<bool>)
    requires Valid(s) && |levels| == SW_COUNT
    requires forall k :: 0 <= k < SW_COUNT ==> s.pressed[k] == !levels[k]
    ensures !Poll(JoyCommit(s), levels).changed
  {
  }

  /**
    After the keyboard commit, a switch that was once pressed and is now
    released keeps raising the flag on every poll: its snapshot stays `true`.
  */
  lemma KeyCommitKeepsReleaseChanging(s: Switches, levels: seq<bool>, i: nat)
    requires Valid(s) && |levels| == SW_COUNT && i < SW_COUNT
    requires s.prev[i] && levels[i]
    ensures var r := Poll(KeyCommit(s), levels);
            r.changed && r.prev[i] && KeyCommit(r).prev[i]
  {
    var r := Poll(KeyCommit(s), levels);
    assert r.pressed[i] != r.prev[i];
  }
}

=== FILE: words.dfy ===
/**
  Fixed-width integers of the firmware, written over Dafny's unbounded `int`,
  with the C conversions the firmware relies on spelled out: reduction of a
  difference modulo 2^32, and the two's complement reading of an unsigned
  value stored into a signed variable.
*/
module Words {

  /** An optional value: `None` where the firmware produces nothing. */
  datatype Option<T> = None | Some(value: T)

  const U8_LIMIT: nat := 0x100
  const U16_LIMIT: nat := 0x1_0000
  const U32_LIMIT: nat := 0x1_0000_0000
  const UINT32_MAX: nat := 0xFFFF_FFFF
  const INT32_LIMIT: int := 0x8000_0000

  type u8 = x: int | 0 <= x < 0x100
  type u16 = x: int | 0 <= x < 0x1_0000
  type u32 = x: int | 0 <= x < 0x1_0000_0000

  /** C's conversion of any integer to `uint32_t`: reduction modulo 2^32. */
  function Wrap32(x: int): (r: u32)
    ensures (r - x) % U32_LIMIT == 0
    ensures 0 <= x < U32_LIMIT ==> r == x
  {
    x % U32_LIMIT
  }

  /** A `uint32_t` stored into a 32-bit `int` (two's complement, as GCC does). */
  function ToInt32(x: u32): (r: int)
    ensures -INT32_LIMIT <= r < INT32_LIMIT
    ensures Wrap32(r) == x
    ensures x < INT32_LIMIT <==> r >= 0
  {
    if x < INT32_LIMIT then x else x - U32_LIMIT
  }

  /** Unsigned 32-bit subtraction `a - b`. */
  function Sub32(a: u32, b: u32): (r: u32)
    ensures a >= b ==> r == a - b
    ensures a < b ==> r == U32_LIMIT - (b - a)
    ensures r == 0 <==> a == b
  {
    Wrap32(a - b)
  }

  /** An `int` passed where the report wants an `int8_t`: two's complement truncation. */
  function ToInt8(x: int): (r: int)
    ensures -128 <= r < 128
    ensures (r - x) % U8_LIMIT == 0
    ensures -128 <= x < 128 ==> r == x
  {
    var m := x % U8_LIMIT;
    if m < 128 then m else m - U8_LIMIT
  }

  function Pow2(n: nat): (r: nat)
    ensures r >= 1
  {
    if n == 0 then 1 else 2 * Pow2(n - 1)
  }

  /** Bit `k` of a natural number, bit 0 being the least significant. */
  predicate Bit(x: nat, k: nat)
  {
    if k == 0 then x % 2 == 1 else Bit(x / 2, k - 1)
  }

  /** A number below 2^n has no bit set at position n or above. */
  lemma {:induction false} BitsAboveWidth(x: nat, n: nat, k: nat)
    requires x < Pow2(n)
    requires n <= k
    ensures !Bit(x, k)
  {
    if k == 0 {
    } else if n == 0 {
      assert x == 0;
      BitsOfZero(k);
    } else {
      BitsAboveWidth(x / 2, n - 1, k - 1);
    }
  }

  lemma {:induction false} BitsOfZero(k: nat)
    ensures !Bit(0, k)
  {
    if k > 0 {
      BitsOfZero(k - 1);
    }
  }
}
